=== FILE: README.md ===
# Minimart back end: Pay-Later applications, the credit check, and order placement

This project models the core of a Django/REST-framework shop back end in Dafny:

- **The Pay-Later application record** (`PayLaterApplication`). It has seven statuses, the know-your-customer (KYC) columns and the decision columns. The table enforces two unique constraints: one application per user, and a unique national id.
- **The submission endpoint** and the status endpoint.
- **The background credit-reference (CRC) check task.** Its retry policy is `max_retries=5`.
- **The catalog records** `Category` and `Product`, with their slug defaulting and unique columns, plus the two catalog permission classes.
- **Order placement.** This covers:
  - validation of the request;
  - the stock check and the order total;
  - the pay-later eligibility gate and the credit limit;
  - the 40% / 0% instalment split and the order and payment statuses;
  - creation of the order lines and the stock decrement;
  - the user-scoped order list and order detail.

Modules follow the application packages: `PayLaterModels`, `PayLaterSerializers`, `PayLaterTasks`, `PayLaterViews`, `ProductModels`, `ProductPermissions`, `OrderModels`, `OrderSerializers` and `OrderViews`. `Common` holds `Option` and `Result`.

Database tables are classes whose fields the operations update in place:

- `ApplicationTable`: a map from id to application row;
- `Catalog`: products and categories;
- `OrderStore`: orders and order lines;
- `JobQueue`: the broker queue that `.delay(...)` appends to.

Their `Valid()` predicates carry the database's unique constraints. Each state-changing method is proved against a pure specification function of the old state:

- `PerformCrcCheck` against `CheckRun`;
- `CreateOrder` against `PlaceOrder`.

What the source promises is proved as lemmas about those functions.

Three things lie outside the code and become parameters:

- the credit reference service (a `CrcOutcome`);
- the payment gateway's answer (`paymentOk`);
- today's date (a day number).

Money is exact (`real`).

In these places the model follows what the code does, which differs from what a reader of the models and comments might expect:

- **Limit on rejection:** a rejecting CRC answer's limit is copied into the record verbatim. It is not normalised to null. See `PayLaterTasks.RejectionKeepsReturnedLimit`.
- **Failed call rolls back:** the `PENDING_CRC_CHECK` write is made inside the same `transaction.atomic()` block as the call. When the call raises, that write is rolled back, so the committed application keeps its previous status. See `PayLaterTasks.FailedCallRollsBack`.
- **Six calls:** with `max_retries=5`, a service that always fails makes the job execute six times, not five: the first attempt plus five retries. See `PayLaterTasks.AlwaysFailingServiceExhaustsRetries`.
- **`available` is not checked:** order placement never looks at a product's `available` flag.
- **Eligibility lookup ignores the URL:** the eligibility endpoint finds the application by the requesting user. The primary key in its URL is not used.

Order placement, by contrast, does not follow the code in one respect: it checks each product's total demand over all lines, and it decrements the current stock. The code as written checks each line on its own and saves back each line's own copy of the product row. That is the second finding below. The behaviour as written is kept in `FirstShort`, `StockWritesAsWritten` and `OversellAsWritten`. `AsWrittenAgreesOnDistinctLines` proves that the two agree whenever no two lines name the same product.

## Model

| member | source | states |
|---|---|---|
| PayLaterModels.ParseStatus | apis/paylater/models.py:7-15 | exactly the seven status spellings are accepted, and each maps back to its own spelling |
| PayLaterModels.StatusNameRoundTrip | apis/paylater/models.py:7-15 | every status is stored under one of the seven names, and reading that name gives the status back |
| PayLaterModels.NewApplication | apis/paylater/models.py:19-44 | a new row has status `PENDING_SUBMISSION`, every nullable decision column null and `is_eligible` false |
| PayLaterModels.ApplicationIdOf | apis/paylater/models.py:17-18 | the lookup by user finds a row exactly when the user has one, and it is that user's row (the user column is one-to-one) |
| PayLaterModels.ApplicationTable.Insert | apis/paylater/models.py:17-25 | an insert fails exactly when the user already has a row or the national id is taken; a failed insert leaves the table unchanged; a successful one adds the row under a fresh id and nothing else |
| PayLaterModels.ApplicationTable.Update | apis/paylater/tasks.py:24-25 | a save of an existing row replaces that row only and keeps the unique columns valid |
| PayLaterModels.ApplicationTable.Restore | apis/paylater/tasks.py:15 | rolling the atomic block back restores the rows saved at its start |
| PayLaterModels.ApplicationTable.Get | apis/paylater/tasks.py:16 | the lookup by id answers exactly for ids present, with that row |
| PayLaterModels.ApplicationTable.FindByUser | apis/paylater/views.py:20 | the lookup by user agrees with `ApplicationIdOf` |
| PayLaterTasks.ApplyAnswer | apis/paylater/tasks.py:42-54 | the decision leaves the user and KYC columns alone, sets a terminal status, and sets `is_eligible` to the approval, which holds exactly when the status is `APPROVED_ELIGIBLE` |
| PayLaterTasks.FailureOutcome | apis/paylater/tasks.py:57-66 | a retry is scheduled exactly for a `RequestException` with fewer than 5 retries used; a `RequestException` past that is re-raised; any other exception only fails |
| PayLaterTasks.CheckRun | apis/paylater/tasks.py:13-66 | one execution keeps the set of ids and every other row; the service is called exactly when the row exists and is not decided; the run completes exactly when the called service answers; any other ending leaves the committed rows as they were |
| PayLaterTasks.PerformCrcCheck | apis/paylater/tasks.py:13-66 | one execution of the CRC task commits exactly the rows `CheckRun` gives, with its outcome and whether the service was called, and keeps the table's unique constraints; when the service is called, the row it is called for is stored with status `PENDING_CRC_CHECK` and every other column as before |
| PayLaterTasks.JobQueue.Delay | apis/paylater/views.py:33 | queuing the CRC task appends exactly that application id |
| PayLaterTasks.TerminalGuard | apis/paylater/tasks.py:18-21 | an approved or rejected application is left unchanged and the service is not called |
| PayLaterTasks.CrcCalledIffProceeding | apis/paylater/tasks.py:16-39 | the service is called if and only if the application exists and is not yet decided |
| PayLaterTasks.CompletedRunDecides | apis/paylater/tasks.py:41-54 | an answered call completes the CRC task: status and `is_eligible` follow the approval; score, reason, limit and raw response are copied; user and KYC columns and every other row stay unchanged |
| PayLaterTasks.FailedCallRollsBack | apis/paylater/tasks.py:15-66 | when the call raises, the committed rows are those before the CRC task, and a retry is scheduled exactly for a `RequestException` on an existing undecided application with retries left |
| PayLaterTasks.MissingIdIsNotRetried | apis/paylater/tasks.py:57-58 | an unknown id changes nothing, calls nothing and schedules no retry |
| PayLaterTasks.TaskTouchesOnlyDecision | apis/paylater/tasks.py:41-54 | the CRC task changes no row but its own and never the user or KYC columns of any row |
| PayLaterTasks.NoTransitionIntoReservedStatuses | apis/paylater/tasks.py:24-54 | no row enters `CRC_APPROVED` or `CRC_REJECTED`; the CRC task's row ends unchanged or terminal |
| PayLaterTasks.CheckRunPreservesInvariant | apis/paylater/tasks.py:41-54 | the CRC task keeps the invariant that `is_eligible` holds exactly for approved rows and that undecided rows have empty decision columns |
| PayLaterTasks.SimulatedAnswerLimitOnlyWhenEligible | apis/paylater/services.py:48-51 | with the simulated service's answers, a limit is stored exactly for eligible applications |
| PayLaterTasks.RejectionKeepsReturnedLimit | apis/paylater/tasks.py:44 | a rejecting answer that carries a limit leaves the application ineligible with that limit stored |
| PayLaterTasks.RedeliveryAfterCompletionIsNoOp | apis/paylater/tasks.py:18-21 | running the CRC task again after it completed changes nothing and calls nothing |
| PayLaterTasks.Replay | apis/paylater/tasks.py:13-66 | deliveries of one job in sequence keep the set of ids and every other row, and record at most one decision per delivery |
| PayLaterTasks.ReplayFromTerminal | apis/paylater/tasks.py:18-21 | any number of deliveries for a decided application change nothing and record no decision |
| PayLaterTasks.ExactlyOneDecision | apis/paylater/tasks.py:13-66 | over any sequence of deliveries of one job, exactly one execution records a decision when the application exists undecided and some delivery gets an answer, and none otherwise |
| PayLaterTasks.RunWithRetries | apis/paylater/tasks.py:13-66 | the retry chain of one job runs at least once and at most once per outcome supplied, keeps the set of ids and every other row, and stops at a scheduled retry only when no outcome is left; every execution before the last met a `RequestException`, and the last is one execution on the original rows with the retry count reached, so the chain stops at the first execution that schedules no retry |
| PayLaterTasks.AnsweredAttemptEndsChain | apis/paylater/tasks.py:41-54 | an answer on the first attempt for an existing undecided application completes the job in one execution, storing that answer's decision |
| PayLaterTasks.AlwaysFailingServiceExhaustsRetries | apis/paylater/tasks.py:59-62 | with `max_retries=5`, a service that always raises makes the job execute 6 times from the first attempt; the last execution calls the service, the exception is then re-raised and the rows are as before |
| PayLaterSerializers.ValidateSubmission | apis/paylater/serializers.py:7-18 | a submission is accepted exactly when the KYC fields meet their column constraints and the national id is not in use; the accepted KYC columns are the submitted ones |
| PayLaterSerializers.ReadOnlyFieldsIgnored | apis/paylater/serializers.py:14-18 | client values for the read-only status and decision fields do not affect validation |
| PayLaterSerializers.SubmittedApplication | apis/paylater/serializers.py:27-29 | the created record belongs to the requesting user, has the submitted KYC, status `SUBMITTED_KYC` and no decision |
| PayLaterSerializers.Create | apis/paylater/serializers.py:22-29 | a second application for a user is refused; otherwise the submitted record is inserted exactly when the national id is free; a refusal changes nothing |
| PayLaterSerializers.EligibilityOf | apis/paylater/serializers.py:31-35 | the projection shows the row's own `is_eligible`, `status`, `eligibility_reason` and `approved_credit_limit`; so an undecided row shows not eligible with no reason and no limit, and a row that is eligible exactly when approved projects to one that is too |
| PayLaterSerializers.EligibilityShowsExactlyFourFields | apis/paylater/serializers.py:31-35 | two applications have the same projection exactly when they agree on the four shown columns, so no other column shows through |
| PayLaterViews.SubmitApplication | apis/paylater/views.py:16-36 | an existing application is answered with its projection and nothing changes; an invalid body changes nothing; otherwise the record is created under a fresh id and exactly one credit-check job is queued for it |
| PayLaterViews.SubmissionKeepsInvariants | apis/paylater/views.py:30-33 | a submission keeps the workflow invariant, and every queued job names an existing application |
| PayLaterViews.RetrieveAsWritten | apis/paylater/views.py:46-51 | as written, the status lookup answers for users with an application and fails with a `TypeError` otherwise |
| PayLaterViews.Retrieve | apis/paylater/views.py:46-51 | the intended status lookup answers with the user's own application's projection, or not-found when there is none |
| PayLaterViews.RetrieveMissingIsNotA404 | apis/paylater/views.py:50-51 | both lookups agree for users with an application; for users without one the code as written never gives the 404 |
| PayLaterViews.DecisionVisibleAfterCheck | apis/paylater/views.py:46-49 | after a CRC run that completes, the status endpoint shows the applicant the stored decision: the approval, `APPROVED_ELIGIBLE` or `REJECTED_INELIGIBLE`, and the reason and limit the service returned |
| PayLaterViews.SubmittedStatusVisibleImmediately | apis/paylater/views.py:46-49 | right after submission the status endpoint shows `SUBMITTED_KYC`, not eligible, with no reason and no limit |
| ProductModels.NewProduct | apis/products/models.py:36-44 | a new product has stock 0 and is available |
| ProductModels.DefaultSlug | apis/products/models.py:62-66 | `save` keeps a given slug and replaces an empty one by the slug of the name |
| ProductModels.DefaultSlugIdempotent | apis/products/models.py:62-66 | defaulting a slug twice gives the same slug as once |
| ProductModels.SaveTwiceSameRow | apis/products/models.py:62-66 | saving a product twice stores the same row as saving it once |
| ProductModels.Catalog.SaveProduct | apis/products/models.py:37 | a product save succeeds exactly when no other product has the defaulted slug; it then stores that row and nothing else, and keeps slugs unique |
| ProductModels.Catalog.SaveCategory | apis/products/models.py:9-21 | a category save succeeds exactly when no other category has the same name or defaulted slug; it then stores that row and nothing else |
| ProductPermissions.AdminOrReadOnly | apis/products/permissions.py:9-12 | safe methods are always allowed; any other method is allowed exactly for authenticated staff |
| ProductPermissions.AuthenticatedOrPurchase | apis/products/permissions.py:19-20 | purchasing is allowed exactly for authenticated users |
| ProductPermissions.PurchaseObjectPermission | apis/products/permissions.py:21-22 | the object-level purchase permission allows every object |
| ProductPermissions.AnonymousIsReadOnly | apis/products/permissions.py:9-12 | an anonymous user may use exactly the safe methods on the catalog |
| ProductPermissions.WriterMayPurchase | apis/products/permissions.py:9-20 | whoever may write to the catalog may also purchase |
| OrderModels.ParsePaymentOption | apis/orders/models.py:9-13 | exactly the three payment-option names are accepted, each mapping back to its name |
| OrderModels.PaymentOptionRoundTrip | apis/orders/models.py:9-13 | every payment option reads back from its own name |
| OrderModels.NewOrder | apis/orders/models.py:34-60 | an order created with its required columns has status and payment status `PENDING`, zero instalment and balance, and no application, due date or transaction reference |
| OrderSerializers.ResolveItems | apis/orders/serializers.py:5-14 | every item resolves exactly when each product id names a product and each quantity lies in the `PositiveIntegerField` range 0 to 2147483647; each line carries the product row read and the quantity |
| OrderSerializers.AllQuantitiesPositive | apis/orders/serializers.py:28-30 | the loop accepts exactly when every quantity is positive |
| OrderSerializers.ValidateItems | apis/orders/serializers.py:25-31 | an empty item list and a non-positive quantity are refused; otherwise the items pass unchanged |
| OrderSerializers.ValidateOrder | apis/orders/serializers.py:18-31 | a request is valid exactly when the option is one of the three, the address and phone are non-blank and within 500 and 20 characters, and there is at least one item, each naming a product with a quantity from 1 to 2147483647; each validated line matches its item |
| OrderViews.FirstOverdrawn | apis/orders/views.py:33-39 | finds the first line whose product, counting that line and the ones before it, is asked for beyond the stock read; none exactly when no line is |
| OrderViews.NoOverdrawIffCovered | apis/orders/views.py:33-39 | no line is refused exactly when every product's total demand over all lines is within its stock |
| OrderViews.ApprovedApplicationOf | apis/orders/views.py:57-62 | the lookup succeeds exactly when the user has an eligible, approved application, and returns it |
| OrderViews.PaymentTerms | apis/orders/views.py:56-101 | the gate refuses only as not eligible, over the limit or payment declined; any refusal other than a declined payment concerns a pay-later option |
| OrderViews.PaymentTermsIffGateOpen | apis/orders/views.py:56-101 | the terms are decided if and only if: for a pay-later option the user has an eligible, approved application whose limit is null, zero or not exceeded, and `PAY_LATER_40` also has its payment accepted; for `OUTRIGHT` the payment is accepted |
| OrderViews.PlaceOrder | apis/orders/views.py:18-132 | a placed order comes from a valid request, has the given id, the user, the total of its lines and one line per validated line, and keeps the set of products |
| OrderViews.PlacementIsTermsAndWrites | apis/orders/views.py:33-128 | a placed order's stock covers its demand and its gate is open; the order row carries the terms `PaymentTerms` decides for its total, the lines are `OrderItems` of the validated lines, and the products are the stock writes `StockWritesCumulative` gives |
| OrderViews.PlacedOrderColumns | apis/orders/views.py:56-128 | the stored order row, per option: `PAY_LATER_40` is `PROCESSING`/`PARTIALLY_PAID` with 40% paid, paid plus remaining equal to the total, due in 30 days and linked to the approved application; `PAY_LATER_0` is `PENDING`/`PENDING` with all owed, due in 30 days and linked; `OUTRIGHT` is `PROCESSING`/`PAID` with no balance, due date or link; every product's stock drops by its total demand |
| OrderViews.OrderItems | apis/orders/views.py:119-125 | one order line per validated line, with its product, quantity and the price read at validation |
| OrderViews.OrderStore.CreateOrder | apis/orders/views.py:104-116 | the new order row is appended under the next id |
| OrderViews.OrderStore.CreateItem | apis/orders/views.py:120-125 | the order line is appended for an existing order |
| OrderViews.TotalLines | apis/orders/views.py:29-46 | the loop refuses with the first overdrawing line's product, and otherwise returns the sum of price times quantity |
| OrderViews.DecideTerms | apis/orders/views.py:48-101 | the gate, the limit check, the split and the payment decide exactly the terms `PaymentTerms` gives |
| OrderViews.WriteLine | apis/orders/views.py:119-128 | one pass adds the line's order row and takes the line's quantity off its product's current stock |
| OrderViews.WriteLines | apis/orders/views.py:118-128 | one order line is added per line, and the products end as `StockWritesCumulative` gives |
| OrderViews.WriteOrder | apis/orders/views.py:103-128 | the order row is appended under the next id, then its lines, and the products end as `StockWritesCumulative` gives |
| OrderViews.RowSavesInPlace | apis/orders/views.py:127-128 | saving back a product that differs only in stock cannot fail on its slug and stores the row as given |
| OrderViews.CreateOrder | apis/orders/views.py:18-132 | a refused request changes no table; an accepted one appends exactly the order row, its lines and the stock writes `PlaceOrder` gives, so the stored order carries its payment terms and every product's stock drops by its total demand |
| OrderViews.ItemsTotalIsLinesTotal | apis/orders/views.py:41-45 | the order total equals the sum of the recorded line prices times quantities |
| OrderViews.LinesTotalNonNegative | apis/orders/views.py:29-41 | with non-negative prices the total is non-negative |
| OrderViews.PlacedOrderLines | apis/orders/views.py:29-46 | a placed order belongs to the user, has one line per requested item with that item's product and quantity at the price read, has every product's total demand within its stock, and has a total equal to the sum of its lines |
| OrderViews.StockCheckPerProduct | apis/orders/views.py:33-39 | a valid request is refused for stock if and only if some product is asked for, over all lines, more than its stock, and the refusal names such a product |
| OrderViews.PayLaterNeedsApprovedApplication | apis/orders/views.py:56-62 | a placed pay-later order is linked to the user's eligible, approved application; without one a valid, stocked pay-later request is refused as not eligible |
| OrderViews.CreditLimitGate | apis/orders/views.py:64-68 | with a non-zero limit, totals above it are refused, placed orders are within it, and a total within it passes when the payment needed is accepted; a null or zero limit bounds nothing |
| OrderViews.WithinLimitAllowed | apis/orders/views.py:64-68 | with an approved limit of 100000, a `PAY_LATER_0` total of 80000 is accepted and one of 100001 is refused as over the limit |
| OrderViews.PlacementSucceedsIff | apis/orders/views.py:18-132 | an order is placed if and only if the request is valid, every product's total demand is within its stock, and the pay-later and payment gate is open for its option and total |
| OrderViews.PaymentTermsByOption | apis/orders/views.py:70-101 | `PAY_LATER_40` pays 40% now and owes the rest, `PARTIALLY_PAID`/`PROCESSING`; `PAY_LATER_0` owes all, `PENDING`/`PENDING`; both are due in 30 days; `OUTRIGHT` is `PAID`/`PROCESSING` with no balance or due date |
| OrderViews.GatewayOnlyForUpfrontPayments | apis/orders/views.py:70-99 | `PAY_LATER_0` does not depend on the gateway; the other two options fail when the gateway declines |
| OrderViews.StockDropsByDemand | apis/orders/views.py:119-128 | each product's stock drops by exactly what the order asks of it, and a product no line names is left as it was |
| OrderViews.FirstShort | apis/orders/views.py:33-39 | as written: the first line whose quantity alone exceeds the stock read; none exactly when no line does |
| OrderViews.StockWritesAsWritten | apis/orders/views.py:126-128 | as written, the writes keep every product row and give a row to every product a line names |
| OrderViews.AsWrittenKeepsUnnamed | apis/orders/views.py:126-128 | as written, a product that no line names keeps its row |
| OrderViews.LastLineWinsAsWritten | apis/orders/views.py:126-128 | as written, a product ends with the row read for the last line naming it, less that line's quantity alone, whatever earlier lines for it asked |
| OrderViews.AsWrittenAgreesOnDistinctLines | apis/orders/views.py:33-128 | when no two lines name the same product, the check and the stock writes as written are the same as the ones placement uses |
| OrderViews.OversellAsWritten | apis/orders/views.py:33-128 | as written, stock 5 and two lines of 3 and 4 for one product pass the check and bill 7 units, yet the stored stock ends at 1 |
| OrderViews.StockWritesCumulative | apis/orders/views.py:118-128 | the writes keep every column but stock, and each product's stock ends lower by exactly the total demanded of it |
| OrderViews.PlacementRefusesOversell | apis/orders/views.py:33-39 | order placement refuses that two-line request as out of stock for the product |
| OrderViews.OrdersOf | apis/orders/views.py:155-157 | the order list has exactly the user's orders, newest first |
| OrderViews.OrderDetail | apis/orders/views.py:164-166 | an order is returned exactly when it has that id and belongs to the user; otherwise not-found |

## Left out

- **Celery:** the broker, the 60-second retry delay and worker concurrency are left out. Deliveries are sequential, and the retry count is a parameter.
- **Row locks:** `select_for_update` row locks are left out, because the model has no concurrency.
- **CRC service:** `call_crc_api` is not part of this model. Its randomness, latency and the commented-out HTTP client are replaced by a `CrcOutcome` parameter. `SimulatedShape` records only the one property of the simulated answer that is used: a limit exactly when approved.
- **Payment gateway:** `_initiate_payment` in `apis/orders/views.py` always returns true. The model gives its answer as the parameter `paymentOk`, so the declined paths are modelled even though the code never takes them.
- **Inputs outside the code:** `date.today()` and the wall clock are parameters. `created_at` and `updated_at` are not modelled. Order ids stand in for the `-created_at` ordering.
- **HTTP layer:** response bodies, HTTP status codes other than the refusal kind, the serializer output and `get_success_headers` are left out. So are logging and `print`.
- **Validation errors:** REST framework collects every failing field. The model reports only the first failing check.
- **Input normalisation:** whitespace trimming and date parsing are left out.
- **Decimals:** the `DecimalField` digit limits and rounding to two places are left out. Money is exact, so the 40% split is exact.
- **Slugs:** `slugify` is left uninterpreted, as a function from names to slugs. The `image` field, `get_absolute_url` and the many-to-many table beyond a set of category ids are left out.
- **Other endpoints:** product and category CRUD views, user registration and the URL routing are not part of this model.
- **Authentication:** the `IsAuthenticated` check in front of the order and Pay-Later views is left out. Those operations take an authenticated user id.
- **Untouched columns:** `Order.transaction_ref` is never written by the core and stays null. Order statuses after placement (`SHIPPED`, `DELIVERED` and so on) are only enumerated.
- **Stock upper bound:** `Product.stock` is an unbounded `nat`. The `PositiveIntegerField` maximum of 2147483647 is checked by validators, and `save()` does not run them. Order placement only ever lowers stock, so the model never raises it past the bound.
- **Deletions:** deleting a user, order, product or application, and the `on_delete` cascades of the foreign keys, are not modelled; the tables only gain rows or change rows in place. Database errors other than the unique constraints are left out.

## Findings

| source | as written | input that shows it | evidently intended | confidence | as-written member | corrected member |
|---|---|---|---|---|---|---|
| apis/paylater/views.py:50-51 | the missing-application branch calls the integer `status.HTTP_404_NOT_FOUND` as if it were an exception class | a user with no application asks for their eligibility; the call raises `TypeError` and the answer is a server error | answer 404 not-found | high, not executed | PayLaterViews.RetrieveAsWritten | PayLaterViews.Retrieve |
| apis/orders/views.py:33-39 | stock is checked per line against the row read for that line, and each line saves back its own copy of the row | product stock 5; one order with lines (product, 3) and (product, 4): accepted and billed for 7 units, stock ends at 1 | check the total demanded per product, and decrement the current stock | high, not executed | OrderViews.OversellAsWritten | OrderViews.StockWritesCumulative |

=== FILE: common.dfy ===
/** Small value wrappers shared by every module: a nullable value (a database
    column declared `null=True`) and the result of an operation that can fail. */
module Common {

  datatype Option<+T> = None | Some(value: T)

  datatype Result<+T, +E> = Ok(value: T) | Err(error: E)

  /** Python truthiness of an optional decimal: `None` and zero are falsy. */
  predicate Truthy(x: Option<real>) {
    x.Some? && x.value != 0.0
  }
}

=== FILE: order_models.dfy ===
/** `Order` and `OrderItem`: the payment-option, order-status and
    payment-status choices and the column defaults. */
module OrderModels {
  import opened Common

  /** `PAYMENT_OPTION_CHOICES`. */
  datatype PaymentOption = Outright | PayLater40 | PayLater0

  /** `ORDER_STATUS_CHOICES`. */
  datatype OrderStatus = Pending | Processing | Shipped | Delivered | Cancelled | Completed | Refunded

  /** `PAYMENT_STATUS_CHOICES`. */
  datatype PaymentStatus = PaymentPending | Paid | PartiallyPaid | FullyRepaid | PaymentFailed | PaymentRefunded

  function PaymentOptionName(o: PaymentOption): string {
    match o
    case Outright => "OUTRIGHT"
    case PayLater40 => "PAY_LATER_40"
    case PayLater0 => "PAY_LATER_0"
  }

  const PaymentOptionNames: set<string> := {"OUTRIGHT", "PAY_LATER_40", "PAY_LATER_0"}

  /** The `ChoiceField` on `payment_option`: exactly the three names are accepted. */
  function ParsePaymentOption(name: string): (r: Option<PaymentOption>)
    ensures r.Some? <==> name in PaymentOptionNames
    ensures r.Some? ==> PaymentOptionName(r.value) == name
  {
    if name == "OUTRIGHT" then Some(Outright)
    else if name == "PAY_LATER_40" then Some(PayLater40)
    else if name == "PAY_LATER_0" then Some(PayLater0)
    else None
  }

  lemma PaymentOptionRoundTrip(o: PaymentOption)
    ensures ParsePaymentOption(PaymentOptionName(o)) == Some(o)
  {
  }

  predicate IsPayLater(o: PaymentOption) {
    o == PayLater40 || o == PayLater0
  }

  datatype Order = Order(
    id: int,
    user: int,
    status: OrderStatus,
    paymentStatus: PaymentStatus,
    deliveryAddress: string,
    deliveryPhone: string,
    totalAmount: real,
    paymentOption: PaymentOption,
    transactionRef: Option<string>,
    payLaterApplication: Option<int>,
    instalmentPaid: real,
    remainingBalance: real,
    repaymentDueDate: Option<int>)   // a day number

  /** A quantity is a `PositiveIntegerField`, so never negative; the price is the
      product's price when the order was placed. */
  datatype OrderItem = OrderItem(order: int, product: int, quantity: nat, price: real)

  /** An order row created with only its required columns: every other column
      takes its default. */
  function NewOrder(id: int, user: int, address: string, phone: string, total: real, option: PaymentOption): (o: Order)
    ensures o.id == id && o.user == user && o.totalAmount == total && o.paymentOption == option
    ensures o.deliveryAddress == address && o.deliveryPhone == phone
    ensures o.status == Pending && o.paymentStatus == PaymentPending
    ensures o.instalmentPaid == 0.0 && o.remainingBalance == 0.0
    ensures o.payLaterApplication.None? && o.repaymentDueDate.None? && o.transactionRef.None?
  {
    Order(id, user, Pending, PaymentPending, address, phone, total, option, None, None, 0.0, 0.0, None)
  }
}

=== FILE: order_serializers.dfy ===
/** `OrderCreateSerializer` and its nested `OrderItemSerializer`: what an
    order request must look like before the order view reads it. */
module OrderSerializers {
  import opened Common
  import opened ProductModels
  import opened OrderModels

  /** One entry of `items` as sent: a product id and a quantity.  The line
      price is not part of the input. */
  datatype ItemInput = ItemInput(productId: int, quantity: int)

  datatype OrderRequest = OrderRequest(
    paymentOption: string,
    deliveryAddress: string,
    deliveryPhone: string,
    items: seq<ItemInput>)

  /** A validated item: the product id resolved to the product row as read
      during validation, and the quantity. */
  datatype Line = Line(productId: int, product: Product, quantity: nat)

  datatype ValidatedOrder = ValidatedOrder(
    option: PaymentOption,
    address: string,
    phone: string,
    lines: seq<Line>)

  datatype OrderField = PaymentOptionField | DeliveryAddress | DeliveryPhone

  datatype RequestError =
    | InvalidChoice
    | Blank(field: OrderField)
    | TooLong(field: OrderField)
    | UnknownProduct(id: int)
    | NegativeQuantity
    | QuantityTooLarge
    | NoItems
    | NonPositiveQuantity

  const MaxAddress: nat := 500
  const MaxPhone: nat := 20

  /** The largest value of a `PositiveIntegerField` column, which the model
      serializer turns into the quantity's `max_value`. */
  const MaxQuantity: nat := 2147483647

  /** Each item through `OrderItemSerializer`: the product id must name a
      product and is resolved to its row; the quantity must lie in the range
      of the `PositiveIntegerField` it maps to, 0 to `MaxQuantity`. */
  function ResolveItems(products: map<int, Product>, items: seq<ItemInput>): (r: Result<seq<Line>, RequestError>)
    ensures r.Ok? <==> forall i :: 0 <= i < |items| ==>
      items[i].productId in products && 0 <= items[i].quantity <= MaxQuantity
    ensures r.Ok? ==> |r.value| == |items|
    ensures r.Ok? ==> forall i :: 0 <= i < |items| ==>
      r.value[i] == Line(items[i].productId, products[items[i].productId], items[i].quantity)
    decreases |items|
  {
    if items == [] then Ok([])
    else
      var head := items[0];
      if head.productId !in products then Err(UnknownProduct(head.productId))
      else if head.quantity < 0 then Err(NegativeQuantity)
      else if head.quantity > MaxQuantity then Err(QuantityTooLarge)
      else match ResolveItems(products, items[1..])
        case Err(e) => Err(e)
        case Ok(rest) => Ok([Line(head.productId, products[head.productId], head.quantity)] + rest)
  }

  /** The loop of `validate_items`: every quantity is positive. */
  function AllQuantitiesPositive(lines: seq<Line>): (b: bool)
    ensures b <==> forall i :: 0 <= i < |lines| ==> lines[i].quantity > 0
    decreases |lines|
  {
    lines == [] || (lines[0].quantity > 0 && AllQuantitiesPositive(lines[1..]))
  }

  /** `validate_items`: at least one item, and no quantity of zero or less. */
  function ValidateItems(lines: seq<Line>): (r: Result<seq<Line>, RequestError>)
    ensures r.Ok? <==> |lines| > 0 && forall i :: 0 <= i < |lines| ==> lines[i].quantity > 0
    ensures r.Ok? ==> r.value == lines
    ensures |lines| == 0 ==> r == Err(NoItems)
    ensures |lines| > 0 && r.Err? ==> r.error == NonPositiveQuantity
  {
    if |lines| == 0 then Err(NoItems)
    else if !AllQuantitiesPositive(lines) then Err(NonPositiveQuantity)
    else Ok(lines)
  }

  /** The request as a whole: the payment option is one of the three choices,
      the address and phone are non-blank and within their lengths, and the
      items resolve and pass `validate_items`. */
  function ValidateOrder(products: map<int, Product>, req: OrderRequest): (r: Result<ValidatedOrder, RequestError>)
    ensures r.Ok? <==>
      && req.paymentOption in PaymentOptionNames
      && 0 < |req.deliveryAddress| <= MaxAddress
      && 0 < |req.deliveryPhone| <= MaxPhone
      && |req.items| > 0
      && forall i :: 0 <= i < |req.items| ==>
           req.items[i].productId in products && 0 < req.items[i].quantity <= MaxQuantity
    ensures r.Ok? ==>
      && ParsePaymentOption(req.paymentOption) == Some(r.value.option)
      && r.value.address == req.deliveryAddress
      && r.value.phone == req.deliveryPhone
      && |r.value.lines| == |req.items|
      && forall i :: 0 <= i < |req.items| ==>
           r.value.lines[i] == Line(req.items[i].productId, products[req.items[i].productId], req.items[i].quantity)
  {
    var option := ParsePaymentOption(req.paymentOption);
    if option.None? then Err(InvalidChoice)
    else if |req.deliveryAddress| == 0 then Err(Blank(DeliveryAddress))
    else if |req.deliveryAddress| > MaxAddress then Err(TooLong(DeliveryAddress))
    else if |req.deliveryPhone| == 0 then Err(Blank(DeliveryPhone))
    else if |req.deliveryPhone| > MaxPhone then Err(TooLong(DeliveryPhone))
    else match ResolveItems(products, req.items)
      case Err(e) => Err(e)
      case Ok(resolved) =>
        match ValidateItems(resolved)
        case Err(e) => Err(e)
        case Ok(lines) => Ok(ValidatedOrder(option.value, req.deliveryAddress, req.deliveryPhone, lines))
  }
}

=== FILE: order_views.dfy ===
/** `OrderCreateView.create` (total, stock check, pay-later gate, instalment
    split, statuses, order lines, stock decrement) and the user-scoped order
    list and detail lookups.  Money is exact (`real`); the date is a day
    number given by the caller; the payment gateway is an oracle whose answer
    is the parameter `paymentOk`.  Order placement checks and decrements stock
    per product (see README, Findings); the per-line check and writes of the
    code as written are modelled at the end of the module. */
module OrderViews {
  import opened Common
  import opened PayLaterModels
  import opened ProductModels
  import opened OrderModels
  import opened OrderSerializers

  /** `Decimal('0.40')`: the upfront share of `PAY_LATER_40`. */
  const UpfrontShare: real := 0.40
  /** `timedelta(days=30)`. */
  const RepaymentDays: int := 30

  datatype OrderError =
    | Invalid(error: RequestError)    // 400 from `is_valid`
    | OutOfStock(productId: int)      // 400
    | NotEligible                     // 403
    | OverCreditLimit                 // 403
    | PaymentDeclined                 // 400

  // ---------------------------------------------------------------------------
  // Totals and stock

  function LineAmount(l: Line): real {
    l.product.price * (l.quantity as real)
  }

  /** The sum of price times quantity over the lines. */
  function LinesTotal(lines: seq<Line>): real
    decreases |lines|
  {
    if lines == [] then 0.0 else LinesTotal(lines[..|lines| - 1]) + LineAmount(lines[|lines| - 1])
  }

  /** How much of product `id` the lines ask for in all. */
  function Demand(lines: seq<Line>, id: int): nat
    decreases |lines|
  {
    if lines == [] then 0
    else Demand(lines[..|lines| - 1], id) + (if lines[|lines| - 1].productId == id then lines[|lines| - 1].quantity else 0)
  }

  lemma {:induction false} DemandOfPrefix(lines: seq<Line>, k: nat, id: int)
    requires k <= |lines|
    ensures Demand(lines[..k], id) <= Demand(lines, id)
    decreases |lines|
  {
    if k < |lines| {
      assert lines[..|lines| - 1][..k] == lines[..k];
      DemandOfPrefix(lines[..|lines| - 1], k, id);
    } else {
      assert lines[..k] == lines;
    }
  }

  lemma {:induction false} LineWithinDemand(lines: seq<Line>, i: nat)
    requires i < |lines|
    ensures lines[i].quantity <= Demand(lines, lines[i].productId)
    decreases |lines|
  {
    if i < |lines| - 1 {
      LineWithinDemand(lines[..|lines| - 1], i);
    }
  }

  lemma {:induction false} DemandAbsent(lines: seq<Line>, id: int)
    requires forall i :: 0 <= i < |lines| ==> lines[i].productId != id
    ensures Demand(lines, id) == 0
    decreases |lines|
  {
    if lines != [] {
      DemandAbsent(lines[..|lines| - 1], id);
    }
  }

  /** Every line carries the row its product id has in `products`. */
  ghost predicate LinesCurrent(products: map<int, Product>, lines: seq<Line>) {
    forall i :: 0 <= i < |lines| ==> lines[i].productId in products && lines[i].product == products[lines[i].productId]
  }

  /** For each product, the lines together ask for no more than its stock. */
  ghost predicate StockCovers(products: map<int, Product>, lines: seq<Line>) {
    forall i :: 0 <= i < |lines| ==>
      lines[i].productId in products && Demand(lines, lines[i].productId) <= products[lines[i].productId].stock
  }

  lemma StockCoversPrefix(products: map<int, Product>, lines: seq<Line>, k: nat)
    requires StockCovers(products, lines) && k <= |lines|
    ensures StockCovers(products, lines[..k])
  {
    forall i | 0 <= i < k
      ensures lines[..k][i].productId in products
      ensures Demand(lines[..k], lines[..k][i].productId) <= products[lines[..k][i].productId].stock
    {
      assert lines[..k][i] == lines[i];
      DemandOfPrefix(lines, k, lines[i].productId);
    }
  }

  /** Line `i` takes its product past the stock read: the lines up to and
      including it ask for more of that product than there is. */
  predicate Overdrawn(lines: seq<Line>, i: nat)
    requires i < |lines|
  {
    Demand(lines[..i + 1], lines[i].productId) > lines[i].product.stock
  }

  /** The first line that overdraws its product. */
  function FirstOverdrawn(lines: seq<Line>): (r: Option<nat>)
    ensures r.None? <==> forall i :: 0 <= i < |lines| ==> !Overdrawn(lines, i)
    ensures r.Some? ==> r.value < |lines| && Overdrawn(lines, r.value)
    ensures r.Some? ==> forall i :: 0 <= i < r.value ==> !Overdrawn(lines, i)
    decreases |lines|
  {
    if lines == [] then None
    else
      var init := lines[..|lines| - 1];
      assert forall i :: 0 <= i < |init| ==> (Overdrawn(init, i) <==> Overdrawn(lines, i)) by {
        forall i | 0 <= i < |init| ensures Overdrawn(init, i) <==> Overdrawn(lines, i) {
          assert init[..i + 1] == lines[..i + 1];
        }
      }
      match FirstOverdrawn(init)
      case Some(k) => Some(k)
      case None => if Overdrawn(lines, |lines| - 1) then Some(|lines| - 1) else None
  }

  /** No line overdraws its product exactly when every product's total demand
      is within its stock. */
  lemma {:induction false} NoOverdrawIffCovered(products: map<int, Product>, lines: seq<Line>)
    requires LinesCurrent(products, lines)
    ensures FirstOverdrawn(lines).None? <==> StockCovers(products, lines)
    decreases |lines|
  {
    if StockCovers(products, lines) {
      forall i | 0 <= i < |lines| ensures !Overdrawn(lines, i) {
        DemandOfPrefix(lines, i + 1, lines[i].productId);
      }
    }
    if lines != [] && FirstOverdrawn(lines).None? {
      var init := lines[..|lines| - 1];
      var last := lines[|lines| - 1];
      forall i | 0 <= i < |init| ensures !Overdrawn(init, i) {
        assert init[..i + 1] == lines[..i + 1];
        assert !Overdrawn(lines, i);
      }
      NoOverdrawIffCovered(products, init);
      assert lines[..|lines|] == lines;
      assert !Overdrawn(lines, |lines| - 1);
      forall i | 0 <= i < |lines|
        ensures Demand(lines, lines[i].productId) <= products[lines[i].productId].stock
      {
        if i < |init| && lines[i].productId != last.productId {
          assert init[i] == lines[i];
        }
      }
    }
  }

  /** `products` is `products0` with, for each product, what the lines ask
      of it taken off its stock, and nothing else changed. */
  ghost predicate StockTaken(products0: map<int, Product>, products: map<int, Product>, lines: seq<Line>) {
    && products.Keys == products0.Keys
    && forall id :: id in products0 ==>
         products[id] == products0[id].(stock := products[id].stock) && products[id].stock + Demand(lines, id) == products0[id].stock
  }

  lemma StockTakenUnique(products0: map<int, Product>, a: map<int, Product>, b: map<int, Product>, lines: seq<Line>)
    requires StockTaken(products0, a, lines) && StockTaken(products0, b, lines)
    ensures a == b
  {
    assert forall id :: id in a ==> a[id] == b[id];
  }

  /** One more line adds its quantity to its own product's demand and to no other. */
  lemma DemandStep(lines: seq<Line>, k: nat)
    requires k < |lines|
    ensures forall id ::
      Demand(lines[..k + 1], id) ==
      Demand(lines[..k], id) + (if id == lines[k].productId then lines[k].quantity else 0)
  {
    assert lines[..k + 1][..k] == lines[..k];
  }

  /** The stock writes: each line saves its product's current row with that
      line's quantity taken off. */
  function StockWritesCumulative(products: map<int, Product>, lines: seq<Line>): (after: map<int, Product>)
    requires StockCovers(products, lines)
    ensures StockTaken(products, after, lines)
    decreases |lines|
  {
    if lines == [] then products
    else
      var init := lines[..|lines| - 1];
      var last := lines[|lines| - 1];
      StockCoversPrefix(products, lines, |lines| - 1);
      var before := StockWritesCumulative(products, init);
      before[last.productId := before[last.productId].(stock := before[last.productId].stock - last.quantity)]
  }

  // ---------------------------------------------------------------------------
  // The pay-later gate and the payment

  /** The user's application counts for the pay-later options when it is eligible and approved. */
  predicate ApprovedFor(rows: map<int, Application>, user: int, id: int) {
    id in rows && rows[id].user == user && rows[id].isEligible && rows[id].status == ApprovedEligible
  }

  /** `PayLaterApplication.objects.get(user=user, is_eligible=True, status='APPROVED_ELIGIBLE')`. */
  function ApprovedApplicationOf(rows: map<int, Application>, user: int): (r: Option<int>)
    requires UniqueUsers(rows)
    ensures r.Some? <==> exists id :: ApprovedFor(rows, user, id)
    ensures r.Some? ==> ApprovedFor(rows, user, r.value)
  {
    match ApplicationIdOf(rows, user)
    case None => None
    case Some(id) =>
      if rows[id].isEligible && rows[id].status == ApprovedEligible then
        assert ApprovedFor(rows, user, id);
        Some(id)
      else
        assert forall other :: ApprovedFor(rows, user, other) ==> other == id;
        None
  }

  /** The payment columns the view decides. */
  datatype Terms = Terms(
    application: Option<int>,
    instalment: real,
    remaining: real,
    dueDate: Option<int>,
    paymentStatus: PaymentStatus,
    status: OrderStatus)

  /** The pay-later gate, the split and the statuses.  A null or zero credit
      limit is falsy and skips the limit check. */
  function PaymentTerms(rows: map<int, Application>, user: int, option: PaymentOption, total: real,
                        today: int, paymentOk: bool): (r: Result<Terms, OrderError>)
    requires UniqueUsers(rows)
    ensures r.Err? ==> r.error in {NotEligible, OverCreditLimit, PaymentDeclined}
    ensures r.Err? && r.error != PaymentDeclined ==> IsPayLater(option)
  {
    if IsPayLater(option) then
      match ApprovedApplicationOf(rows, user)
      case None => Err(NotEligible)
      case Some(appId) =>
        var limit := rows[appId].approvedLimit;
        if Truthy(limit) && total > limit.value then Err(OverCreditLimit)
        else if option == PayLater40 then
          var instalment := total * UpfrontShare;
          if !paymentOk then Err(PaymentDeclined)
          else Ok(Terms(Some(appId), instalment, total - instalment, Some(today + RepaymentDays), PartiallyPaid, Processing))
        else
          Ok(Terms(Some(appId), 0.0, total, Some(today + RepaymentDays), PaymentPending, Pending))
    else if !paymentOk then Err(PaymentDeclined)
    else Ok(Terms(None, 0.0, 0.0, None, Paid, Processing))
  }

  /** When the gate lets a request through, stated on its own: a pay-later
      option needs an eligible, approved application of the user whose limit
      is falsy or not exceeded, and `PAY_LATER_40` also needs the upfront
      payment; `OUTRIGHT` needs the payment. */
  ghost predicate GateOpen(rows: map<int, Application>, user: int, option: PaymentOption, total: real, paymentOk: bool) {
    if IsPayLater(option) then
      && (exists id :: ApprovedFor(rows, user, id) && WithinLimit(rows[id].approvedLimit, total))
      && (option == PayLater0 || paymentOk)
    else paymentOk
  }

  /** `if limit and total > limit` does not refuse. */
  predicate WithinLimit(limit: Option<real>, total: real) {
    !Truthy(limit) || total <= limit.value
  }

  /** The gate in both directions: the terms are decided exactly when
      `GateOpen` holds. */
  lemma PaymentTermsIffGateOpen(rows: map<int, Application>, user: int, option: PaymentOption, total: real,
                                today: int, paymentOk: bool)
    requires UniqueUsers(rows)
    ensures PaymentTerms(rows, user, option, total, today, paymentOk).Ok? <==> GateOpen(rows, user, option, total, paymentOk)
  {
    if IsPayLater(option) && ApprovedApplicationOf(rows, user).Some? {
      var appId := ApprovedApplicationOf(rows, user).value;
      assert forall id :: ApprovedFor(rows, user, id) ==> id == appId;
    }
  }

  // ---------------------------------------------------------------------------
  // The rows written

  function OrderRecord(id: int, user: int, v: ValidatedOrder, total: real, t: Terms): Order {
    NewOrder(id, user, v.address, v.phone, total, v.option).(
      status := t.status, paymentStatus := t.paymentStatus, payLaterApplication := t.application,
      instalmentPaid := t.instalment, remainingBalance := t.remaining, repaymentDueDate := t.dueDate)
  }

  function ItemOf(orderId: int, l: Line): OrderItem {
    OrderItem(orderId, l.productId, l.quantity, l.product.price)
  }

  /** One order line per validated line, at the product's price when read. */
  function OrderItems(orderId: int, lines: seq<Line>): (items: seq<OrderItem>)
    ensures |items| == |lines|
    ensures forall i :: 0 <= i < |lines| ==> items[i] == ItemOf(orderId, lines[i])
    decreases |lines|
  {
    if lines == [] then [] else OrderItems(orderId, lines[..|lines| - 1]) + [ItemOf(orderId, lines[|lines| - 1])]
  }

  /** The sum of recorded price times quantity over order lines. */
  function ItemsTotal(items: seq<OrderItem>): real
    decreases |items|
  {
    if items == [] then 0.0
    else ItemsTotal(items[..|items| - 1]) + items[|items| - 1].price * (items[|items| - 1].quantity as real)
  }

  datatype Placement = Placement(order: Order, items: seq<OrderItem>, products: map<int, Product>)

  /** What one order request does, as a function of the state it starts from:
      the specification of `CreateOrder`. */
  function PlaceOrder(products: map<int, Product>, rows: map<int, Application>, user: int, req: OrderRequest,
                      today: int, paymentOk: bool, orderId: int): (r: Result<Placement, OrderError>)
    requires UniqueUsers(rows)
    ensures r.Ok? ==> ValidateOrder(products, req).Ok?
    ensures r.Ok? ==>
      && r.value.order.id == orderId && r.value.order.user == user
      && r.value.order.totalAmount == LinesTotal(ValidateOrder(products, req).value.lines)
      && |r.value.items| == |ValidateOrder(products, req).value.lines|
      && r.value.products.Keys == products.Keys
  {
    match ValidateOrder(products, req)
    case Err(e) => Err(Invalid(e))
    case Ok(v) =>
      match FirstOverdrawn(v.lines)
      case Some(k) => Err(OutOfStock(v.lines[k].productId))
      case None =>
        var total := LinesTotal(v.lines);
        match PaymentTerms(rows, user, v.option, total, today, paymentOk)
        case Err(e) => Err(e)
        case Ok(t) =>
          NoOverdrawIffCovered(products, v.lines);
          Ok(Placement(OrderRecord(orderId, user, v, total, t), OrderItems(orderId, v.lines),
                       StockWritesCumulative(products, v.lines)))
  }

  // ---------------------------------------------------------------------------
  // The order tables and the view

  /** The `Order` and `OrderItem` tables.  Ids are given in creation order. */
  class OrderStore {
    var orders: seq<Order>
    var items: seq<OrderItem>

    ghost predicate Valid()
      reads this
    {
      && (forall i :: 0 <= i < |orders| ==> orders[i].id == i + 1)
      && (forall k :: 0 <= k < |items| ==> 0 < items[k].order <= |orders|)
    }

    constructor ()
      ensures Valid() && orders == [] && items == []
    {
      orders := [];
      items := [];
    }

    /** `Order.objects.create(...)`: the row gets the next id. */
    method CreateOrder(o: Order) returns (id: int)
      requires Valid()
      modifies this
      ensures Valid()
      ensures id == |old(orders)| + 1
      ensures orders == old(orders) + [o.(id := id)] && items == old(items)
    {
      id := |orders| + 1;
      orders := orders + [o.(id := id)];
    }

    /** `OrderItem.objects.create(...)` for an existing order. */
    method CreateItem(item: OrderItem)
      requires Valid() && 0 < item.order <= |orders|
      modifies this
      ensures Valid()
      ensures items == old(items) + [item] && orders == old(orders)
    {
      items := items + [item];
    }
  }

  /** Rows that differ at most in their stock. */
  ghost predicate SameButStock(a: map<int, Product>, b: map<int, Product>) {
    a.Keys == b.Keys && forall id :: id in a ==> b[id] == a[id].(stock := b[id].stock)
  }

  /** What has been asked of product `id` by the lines seen so far. */
  function DemandedSoFar(demanded: map<int, nat>, id: int): nat {
    if id in demanded then demanded[id] else 0
  }

  /** The first loop of the view: add up price times quantity, refusing the
      request at the first line that takes its product's running demand past
      the stock read. */
  method TotalLines(lines: seq<Line>) returns (r: Result<real, OrderError>)
    ensures FirstOverdrawn(lines).None? ==> r == Ok(LinesTotal(lines))
    ensures FirstOverdrawn(lines).Some? ==> r == Err(OutOfStock(lines[FirstOverdrawn(lines).value].productId))
  {
    var total := 0.0;
    var demanded: map<int, nat> := map[];
    var i := 0;
    while i < |lines|
      invariant 0 <= i <= |lines|
      invariant total == LinesTotal(lines[..i])
      invariant forall id :: DemandedSoFar(demanded, id) == Demand(lines[..i], id)
      invariant forall j :: 0 <= j < i ==> !Overdrawn(lines, j)
    {
      var line := lines[i];
      var wanted := DemandedSoFar(demanded, line.productId) + line.quantity;
      assert lines[..i + 1][..i] == lines[..i];
      if line.product.stock < wanted {
        assert Overdrawn(lines, i);
        return Err(OutOfStock(line.productId));
      }
      total := total + line.product.price * (line.quantity as real);
      demanded := demanded[line.productId := wanted];
      i := i + 1;
    }
    assert lines[..i] == lines;
    r := Ok(total);
  }

  /** The pay-later gate and the payment: the user's approved application is
      looked up, the total is held to its limit when the limit is truthy, the
      instalment split is computed, and the gateway is asked unless the option
      is `PAY_LATER_0`. */
  method DecideTerms(table: ApplicationTable, user: int, option: PaymentOption, total: real,
                     today: int, paymentOk: bool) returns (r: Result<Terms, OrderError>)
    requires table.Valid()
    ensures r == PaymentTerms(table.rows, user, option, total, today, paymentOk)
  {
    if !IsPayLater(option) {
      if !paymentOk {
        return Err(PaymentDeclined);
      }
      return Ok(Terms(None, 0.0, 0.0, None, Paid, Processing));
    }
    var found := table.FindByUser(user);
    if found.None? || !table.rows[found.value].isEligible || table.rows[found.value].status != ApprovedEligible {
      return Err(NotEligible);
    }
    var limit := table.rows[found.value].approvedLimit;
    if Truthy(limit) && total > limit.value {
      return Err(OverCreditLimit);
    }
    var dueDate := Some(today + RepaymentDays);
    if option == PayLater40 {
      var instalment := total * UpfrontShare;
      var remaining := total - instalment;
      if !paymentOk {
        return Err(PaymentDeclined);
      }
      r := Ok(Terms(found, instalment, remaining, dueDate, PartiallyPaid, Processing));
    } else {
      r := Ok(Terms(found, 0.0, total, dueDate, PaymentPending, Pending));
    }
  }

  /** Saving back a row that differs from the stored one only in its stock
      keeps its slug, so the save succeeds and stores the row unchanged. */
  lemma RowSavesInPlace(catalog: Catalog, id: int, row: Product, products0: map<int, Product>)
    requires catalog.Valid() && SameButStock(products0, catalog.products)
    requires id in products0 && row == products0[id].(stock := row.stock)
    ensures WithDefaultSlug(row, catalog.slugify) == row
    ensures ProductSlugFree(catalog.products, id, row.slug)
  {
    assert catalog.products[id] == products0[id].(stock := catalog.products[id].stock);
    assert WithDefaultSlug(catalog.products[id], catalog.slugify) == catalog.products[id];
  }

  /** One pass of the second loop: the order line for `lines[k]`, and its
      product saved with that line's quantity taken off its current stock. */
  method WriteLine(catalog: Catalog, store: OrderStore, orderId: int,
                   ghost products0: map<int, Product>, lines: seq<Line>, k: nat)
    requires catalog.Valid() && store.Valid() && 0 < orderId <= |store.orders|
    requires StockCovers(products0, lines) && k < |lines|
    requires StockTaken(products0, catalog.products, lines[..k])
    modifies catalog, store
    ensures catalog.Valid() && store.Valid()
    ensures catalog.categories == old(catalog.categories) && store.orders == old(store.orders)
    ensures store.items == old(store.items) + [ItemOf(orderId, lines[k])]
    ensures StockTaken(products0, catalog.products, lines[..k + 1])
  {
    var line := lines[k];
    store.CreateItem(OrderItem(orderId, line.productId, line.quantity, line.product.price));
    DemandStep(lines, k);
    DemandOfPrefix(lines, k + 1, line.productId);
    var current := catalog.products[line.productId];
    var row := current.(stock := current.stock - line.quantity);
    RowSavesInPlace(catalog, line.productId, row, products0);
    var saved := catalog.SaveProduct(line.productId, row);
  }

  /** The second loop of the view: one order line per validated line, and
      each line's product saved with that line's quantity taken off its
      current stock. */
  method WriteLines(catalog: Catalog, store: OrderStore, orderId: int, lines: seq<Line>)
    requires catalog.Valid() && store.Valid() && 0 < orderId <= |store.orders|
    requires StockCovers(catalog.products, lines)
    modifies catalog, store
    ensures catalog.Valid() && store.Valid()
    ensures catalog.categories == old(catalog.categories) && store.orders == old(store.orders)
    ensures store.items == old(store.items) + OrderItems(orderId, lines)
    ensures catalog.products == StockWritesCumulative(old(catalog.products), lines)
  {
    ghost var products0 := catalog.products;
    var k := 0;
    assert lines[..0] == [];
    while k < |lines|
      invariant 0 <= k <= |lines|
      invariant catalog.Valid() && store.Valid() && 0 < orderId <= |store.orders|
      invariant catalog.categories == old(catalog.categories) && store.orders == old(store.orders)
      invariant store.items == old(store.items) + OrderItems(orderId, lines[..k])
      invariant StockTaken(products0, catalog.products, lines[..k])
    {
      assert lines[..k + 1][..k] == lines[..k];
      assert OrderItems(orderId, lines[..k + 1]) == OrderItems(orderId, lines[..k]) + [ItemOf(orderId, lines[k])];
      WriteLine(catalog, store, orderId, products0, lines, k);
      k := k + 1;
    }
    assert lines[..k] == lines;
    StockTakenUnique(products0, catalog.products, StockWritesCumulative(products0, lines), lines);
  }

  /** `OrderCreateView.create` after authentication: validate, total and
      stock-check the lines, apply the pay-later gate and the payment, then
      create the order, its lines, and decrement each product's stock.  Every
      refusal happens before the first write. */
  method CreateOrder(catalog: Catalog, store: OrderStore, table: ApplicationTable,
                     user: int, req: OrderRequest, today: int, paymentOk: bool)
    returns (r: Result<int, OrderError>)
    requires catalog.Valid() && store.Valid() && table.Valid()
    modifies catalog, store
    ensures catalog.Valid() && store.Valid()
    ensures catalog.categories == old(catalog.categories)
    ensures var p := PlaceOrder(old(catalog.products), table.rows, user, req, today, paymentOk, |old(store.orders)| + 1);
      && (p.Err? ==>
            && r == Err(p.error)
            && catalog.products == old(catalog.products)
            && store.orders == old(store.orders) && store.items == old(store.items))
      && (p.Ok? ==>
            && r == Ok(p.value.order.id)
            && store.orders == old(store.orders) + [p.value.order]
            && store.items == old(store.items) + p.value.items
            && catalog.products == p.value.products)
  {
    ghost var products0 := catalog.products;
    ghost var id0 := |store.orders| + 1;
    var validated := ValidateOrder(catalog.products, req);
    if validated.Err? {
      return Err(Invalid(validated.error));
    }
    var v := validated.value;
    var totalled := TotalLines(v.lines);
    if totalled.Err? {
      return Err(totalled.error);
    }
    var total := totalled.value;
    var terms := DecideTerms(table, user, v.option, total, today, paymentOk);
    if terms.Err? {
      return Err(terms.error);
    }
    NoOverdrawIffCovered(catalog.products, v.lines);
    ghost var placed := Placement(OrderRecord(id0, user, v, total, terms.value), OrderItems(id0, v.lines),
                                  StockWritesCumulative(products0, v.lines));
    assert PlaceOrder(products0, table.rows, user, req, today, paymentOk, id0) == Ok(placed);
    var orderId := WriteOrder(catalog, store, OrderRecord(0, user, v, total, terms.value), v.lines);
    r := Ok(orderId);
  }

  /** The writes of an accepted order: the order row under the next id, then
      its lines and the stock writes. */
  method WriteOrder(catalog: Catalog, store: OrderStore, o: Order, lines: seq<Line>) returns (id: int)
    requires catalog.Valid() && store.Valid()
    requires StockCovers(catalog.products, lines)
    modifies catalog, store
    ensures catalog.Valid() && store.Valid()
    ensures id == |old(store.orders)| + 1
    ensures catalog.categories == old(catalog.categories)
    ensures store.orders == old(store.orders) + [o.(id := id)]
    ensures store.items == old(store.items) + OrderItems(id, lines)
    ensures catalog.products == StockWritesCumulative(old(catalog.products), lines)
  {
    id := store.CreateOrder(o);
    WriteLines(catalog, store, id, lines);
  }

  // ---------------------------------------------------------------------------
  // Properties of order placement

  /** The total is the sum, over the order lines created, of the recorded
      price times the quantity. */
  lemma {:induction false} ItemsTotalIsLinesTotal(orderId: int, lines: seq<Line>)
    ensures ItemsTotal(OrderItems(orderId, lines)) == LinesTotal(lines)
    decreases |lines|
  {
    if lines != [] {
      var init := lines[..|lines| - 1];
      var last := ItemOf(orderId, lines[|lines| - 1]);
      ItemsTotalIsLinesTotal(orderId, init);
      assert OrderItems(orderId, lines) == OrderItems(orderId, init) + [last];
      ItemsTotalStep(OrderItems(orderId, init), last);
    }
  }

  /** Appending one order line adds its price times its quantity. */
  lemma ItemsTotalStep(items: seq<OrderItem>, it: OrderItem)
    ensures ItemsTotal(items + [it]) == ItemsTotal(items) + it.price * (it.quantity as real)
  {
    assert (items + [it])[..|items|] == items;
  }

  /** With non-negative prices the total is non-negative. */
  lemma {:induction false} LinesTotalNonNegative(lines: seq<Line>)
    requires forall i :: 0 <= i < |lines| ==> lines[i].product.price >= 0.0
    ensures LinesTotal(lines) >= 0.0
    decreases |lines|
  {
    if lines != [] {
      LinesTotalNonNegative(lines[..|lines| - 1]);
    }
  }

  /** A placed order: its total is the sum of its lines at the prices read,
      there is one line per requested item with that item's product and
      quantity, and each product's total demand is within the stock read. */
  lemma PlacedOrderLines(products: map<int, Product>, rows: map<int, Application>, user: int,
                         req: OrderRequest, today: int, paymentOk: bool, orderId: int)
    requires UniqueUsers(rows)
    requires PlaceOrder(products, rows, user, req, today, paymentOk, orderId).Ok?
    ensures var p := PlaceOrder(products, rows, user, req, today, paymentOk, orderId).value;
      var lines := ValidateOrder(products, req).value.lines;
      && p.order.id == orderId && p.order.user == user
      && p.order.totalAmount == ItemsTotal(p.items)
      && |p.items| == |req.items|
      && StockCovers(products, lines)
      && forall i :: 0 <= i < |req.items| ==>
           && req.items[i].productId in products
           && p.items[i] == OrderItem(orderId, req.items[i].productId, req.items[i].quantity,
                                      products[req.items[i].productId].price)
           && req.items[i].quantity <= products[req.items[i].productId].stock
  {
    var v := ValidateOrder(products, req).value;
    PlacementIsTermsAndWrites(products, rows, user, req, today, paymentOk, orderId);
    ItemsTotalIsLinesTotal(orderId, v.lines);
    forall i | 0 <= i < |req.items| ensures req.items[i].quantity <= products[req.items[i].productId].stock {
      LineWithinDemand(v.lines, i);
    }
  }

  /** A valid request is refused for stock exactly when some product is asked
      for more, over all its lines, than its stock; the refusal names such a
      product. */
  lemma StockCheckPerProduct(products: map<int, Product>, rows: map<int, Application>, user: int,
                             req: OrderRequest, today: int, paymentOk: bool, orderId: int)
    requires UniqueUsers(rows)
    requires ValidateOrder(products, req).Ok?
    ensures var p := PlaceOrder(products, rows, user, req, today, paymentOk, orderId);
      var lines := ValidateOrder(products, req).value.lines;
      && (p.Err? && p.error.OutOfStock? <==> !StockCovers(products, lines))
      && (p.Err? && p.error.OutOfStock? ==>
            p.error.productId in products && Demand(lines, p.error.productId) > products[p.error.productId].stock)
  {
    var lines := ValidateOrder(products, req).value.lines;
    var p := PlaceOrder(products, rows, user, req, today, paymentOk, orderId);
    NoOverdrawIffCovered(products, lines);
    var first := FirstOverdrawn(lines);
    if first.Some? {
      assert p == Err(OutOfStock(lines[first.value].productId));
      DemandOfPrefix(lines, first.value + 1, lines[first.value].productId);
    } else {
      var total := LinesTotal(lines);
      var t := PaymentTerms(rows, user, ValidateOrder(products, req).value.option, total, today, paymentOk);
      assert t.Err? ==> p == Err(t.error);
    }
  }

  /** A pay-later order is placed only for a user whose application is
      eligible and approved, and is linked to it; without such an application
      a valid, stocked pay-later request is refused as not eligible. */
  lemma PayLaterNeedsApprovedApplication(products: map<int, Product>, rows: map<int, Application>, user: int,
                                         req: OrderRequest, today: int, paymentOk: bool, orderId: int)
    requires UniqueUsers(rows)
    requires ValidateOrder(products, req).Ok? && IsPayLater(ValidateOrder(products, req).value.option)
    ensures var p := PlaceOrder(products, rows, user, req, today, paymentOk, orderId);
      && (p.Ok? ==> p.value.order.payLaterApplication.Some?
                    && ApprovedFor(rows, user, p.value.order.payLaterApplication.value))
      && ((forall id :: !ApprovedFor(rows, user, id)) && StockCovers(products, ValidateOrder(products, req).value.lines) ==>
            p == Err(NotEligible))
  {
    NoOverdrawIffCovered(products, ValidateOrder(products, req).value.lines);
  }

  /** The credit limit: with a truthy limit a placed pay-later order is within
      it, and an approved request above it is refused; a null or zero limit
      does not bound the total. */
  lemma CreditLimitGate(rows: map<int, Application>, user: int, option: PaymentOption, total: real,
                        today: int, paymentOk: bool)
    requires UniqueUsers(rows) && IsPayLater(option)
    requires ApprovedApplicationOf(rows, user).Some?
    ensures var limit := rows[ApprovedApplicationOf(rows, user).value].approvedLimit;
      var t := PaymentTerms(rows, user, option, total, today, paymentOk);
      && (Truthy(limit) && total > limit.value ==> t == Err(OverCreditLimit))
      && (Truthy(limit) && t.Ok? ==> total <= limit.value)
      && (Truthy(limit) && total <= limit.value && (option == PayLater0 || paymentOk) ==> t.Ok?)
      && (!Truthy(limit) && (option == PayLater0 || paymentOk) ==> t.Ok?)
  {
  }

  /** The limit of 100000 admits a pay-later total of 80000. */
  lemma WithinLimitAllowed(rows: map<int, Application>, user: int, id: int, today: int)
    requires UniqueUsers(rows) && ApprovedFor(rows, user, id) && rows[id].approvedLimit == Some(100000.0)
    ensures PaymentTerms(rows, user, PayLater0, 80000.0, today, false).Ok?
    ensures PaymentTerms(rows, user, PayLater0, 100001.0, today, false) == Err(OverCreditLimit)
  {
    PaymentTermsIffGateOpen(rows, user, PayLater0, 80000.0, today, false);
    assert ApprovedApplicationOf(rows, user) == Some(id);
  }

  /** When an order is placed: exactly when the request is valid, every
      product's total demand is within its stock, and the gate is open for the
      order's option and total. */
  lemma PlacementSucceedsIff(products: map<int, Product>, rows: map<int, Application>, user: int,
                             req: OrderRequest, today: int, paymentOk: bool, orderId: int)
    requires UniqueUsers(rows)
    ensures PlaceOrder(products, rows, user, req, today, paymentOk, orderId).Ok? <==>
      && ValidateOrder(products, req).Ok?
      && StockCovers(products, ValidateOrder(products, req).value.lines)
      && GateOpen(rows, user, ValidateOrder(products, req).value.option,
                  LinesTotal(ValidateOrder(products, req).value.lines), paymentOk)
  {
    if ValidateOrder(products, req).Ok? {
      var v := ValidateOrder(products, req).value;
      NoOverdrawIffCovered(products, v.lines);
      PaymentTermsIffGateOpen(rows, user, v.option, LinesTotal(v.lines), today, paymentOk);
    }
  }

  /** What a placed order consists of: the order row carries the terms the
      gate decides for the order's total, the lines are one per validated
      line, and the products are the cumulative stock writes. */
  lemma PlacementIsTermsAndWrites(products: map<int, Product>, rows: map<int, Application>, user: int,
                                  req: OrderRequest, today: int, paymentOk: bool, orderId: int)
    requires UniqueUsers(rows)
    requires PlaceOrder(products, rows, user, req, today, paymentOk, orderId).Ok?
    ensures var r := PlaceOrder(products, rows, user, req, today, paymentOk, orderId).value;
      var v := ValidateOrder(products, req).value;
      var total := LinesTotal(v.lines);
      && StockCovers(products, v.lines)
      && PaymentTerms(rows, user, v.option, total, today, paymentOk).Ok?
      && r.order == OrderRecord(orderId, user, v, total, PaymentTerms(rows, user, v.option, total, today, paymentOk).value)
      && r.items == OrderItems(orderId, v.lines)
      && r.products == StockWritesCumulative(products, v.lines)
  {
    NoOverdrawIffCovered(products, ValidateOrder(products, req).value.lines);
  }

  /** The placed order's own columns, per option: what the endpoint stores,
      not only what the terms say. */
  lemma PlacedOrderColumns(products: map<int, Product>, rows: map<int, Application>, user: int,
                           req: OrderRequest, today: int, paymentOk: bool, orderId: int)
    requires UniqueUsers(rows)
    requires PlaceOrder(products, rows, user, req, today, paymentOk, orderId).Ok?
    ensures var p := PlaceOrder(products, rows, user, req, today, paymentOk, orderId).value;
      var o := p.order;
      var v := ValidateOrder(products, req).value;
      && o.id == orderId && o.user == user && o.paymentOption == v.option
      && o.deliveryAddress == req.deliveryAddress && o.deliveryPhone == req.deliveryPhone
      && o.totalAmount == LinesTotal(v.lines) && o.transactionRef.None?
      && (v.option == PayLater40 ==>
            && o.status == Processing && o.paymentStatus == PartiallyPaid
            && o.instalmentPaid == o.totalAmount * 2.0 / 5.0
            && o.instalmentPaid + o.remainingBalance == o.totalAmount
            && o.repaymentDueDate == Some(today + 30)
            && o.payLaterApplication.Some? && ApprovedFor(rows, user, o.payLaterApplication.value))
      && (v.option == PayLater0 ==>
            && o.status == Pending && o.paymentStatus == PaymentPending
            && o.instalmentPaid == 0.0 && o.remainingBalance == o.totalAmount
            && o.repaymentDueDate == Some(today + 30)
            && o.payLaterApplication.Some? && ApprovedFor(rows, user, o.payLaterApplication.value))
      && (v.option == Outright ==>
            && o.status == Processing && o.paymentStatus == Paid
            && o.instalmentPaid == 0.0 && o.remainingBalance == 0.0
            && o.repaymentDueDate.None? && o.payLaterApplication.None?)
      && (forall id :: id in products ==> products[id].stock - p.products[id].stock == Demand(v.lines, id))
  {
    var v := ValidateOrder(products, req).value;
    var total := LinesTotal(v.lines);
    PlacementIsTermsAndWrites(products, rows, user, req, today, paymentOk, orderId);
    PaymentTermsByOption(rows, user, v.option, total, today, paymentOk);
    var t := PaymentTerms(rows, user, v.option, total, today, paymentOk).value;
    if IsPayLater(v.option) {
      PayLaterNeedsApprovedApplication(products, rows, user, req, today, paymentOk, orderId);
    }
    forall id | id in products
      ensures products[id].stock - StockWritesCumulative(products, v.lines)[id].stock == Demand(v.lines, id)
    {
      StockDropsByDemand(products, v.lines, id);
    }
  }

  /** The split: the amount paid now and the balance add up to the total;
      `PAY_LATER_40` takes 40% now, `PAY_LATER_0` nothing, `OUTRIGHT` records
      neither.  The statuses, the link to the application and the due date
      follow the option. */
  lemma PaymentTermsByOption(rows: map<int, Application>, user: int, option: PaymentOption, total: real,
                             today: int, paymentOk: bool)
    requires UniqueUsers(rows)
    requires PaymentTerms(rows, user, option, total, today, paymentOk).Ok?
    ensures var t := PaymentTerms(rows, user, option, total, today, paymentOk).value;
      && (option == PayLater40 ==>
            && t.instalment == total * 2.0 / 5.0 && t.instalment + t.remaining == total
            && t.paymentStatus == PartiallyPaid && t.status == Processing
            && t.dueDate == Some(today + 30) && t.application.Some? && paymentOk)
      && (option == PayLater0 ==>
            && t.instalment == 0.0 && t.remaining == total
            && t.paymentStatus == PaymentPending && t.status == Pending
            && t.dueDate == Some(today + 30) && t.application.Some?)
      && (option == Outright ==>
            && t.instalment == 0.0 && t.remaining == 0.0
            && t.paymentStatus == Paid && t.status == Processing
            && t.dueDate.None? && t.application.None? && paymentOk)
  {
  }

  /** `PAY_LATER_0` does not call the payment gateway: its outcome does not
      depend on the gateway's answer; the other two options fail when the
      gateway declines. */
  lemma GatewayOnlyForUpfrontPayments(rows: map<int, Application>, user: int, option: PaymentOption, total: real,
                                      today: int)
    requires UniqueUsers(rows)
    ensures option == PayLater0 ==>
      PaymentTerms(rows, user, option, total, today, true) == PaymentTerms(rows, user, option, total, today, false)
    ensures option != PayLater0 ==> PaymentTerms(rows, user, option, total, today, false).Err?
  {
  }

  /** Each product's stock drops by exactly what the order asks of it, and
      every other product is left as it was. */
  lemma StockDropsByDemand(products: map<int, Product>, lines: seq<Line>, id: int)
    requires StockCovers(products, lines) && id in products
    ensures products[id].stock - StockWritesCumulative(products, lines)[id].stock == Demand(lines, id)
    ensures (forall i :: 0 <= i < |lines| ==> lines[i].productId != id) ==>
      StockWritesCumulative(products, lines)[id] == products[id]
  {
    if forall i :: 0 <= i < |lines| ==> lines[i].productId != id {
      DemandAbsent(lines, id);
    }
  }

  // ---------------------------------------------------------------------------
  // The stock check and writes as written (see README, Findings)

  predicate Short(l: Line) {
    l.product.stock < l.quantity
  }

  /** The check as written: the first line whose quantity alone exceeds the
      stock read for it. */
  function FirstShort(lines: seq<Line>): (r: Option<nat>)
    ensures r.None? <==> forall j :: 0 <= j < |lines| ==> !Short(lines[j])
    ensures r.Some? ==> r.value < |lines| && Short(lines[r.value])
    ensures r.Some? ==> forall j :: 0 <= j < r.value ==> !Short(lines[j])
    decreases |lines|
  {
    if lines == [] then None
    else if Short(lines[0]) then Some(0)
    else match FirstShort(lines[1..])
      case None => None
      case Some(k) => Some(k + 1)
  }

  /** The writes as written: each line saves back its own copy of the product
      row, read during validation, less that line's quantity. */
  function StockWritesAsWritten(products: map<int, Product>, lines: seq<Line>): (r: map<int, Product>)
    requires forall i :: 0 <= i < |lines| ==> !Short(lines[i])
    ensures products.Keys <= r.Keys
    ensures forall i :: 0 <= i < |lines| ==> lines[i].productId in r
    decreases |lines|
  {
    if lines == [] then products
    else
      var last := lines[|lines| - 1];
      assert !Short(last);
      StockWritesAsWritten(products, lines[..|lines| - 1])[last.productId := last.product.(stock := last.product.stock - last.quantity)]
  }

  /** As written, a product that no line names keeps its row. */
  lemma {:induction false} AsWrittenKeepsUnnamed(products: map<int, Product>, lines: seq<Line>, k: int)
    requires forall i :: 0 <= i < |lines| ==> !Short(lines[i])
    requires k in products && forall i :: 0 <= i < |lines| ==> lines[i].productId != k
    ensures StockWritesAsWritten(products, lines)[k] == products[k]
    decreases |lines|
  {
    if lines != [] {
      var init := lines[..|lines| - 1];
      assert forall i :: 0 <= i < |init| ==> init[i] == lines[i];
      AsWrittenKeepsUnnamed(products, init, k);
    }
  }

  /** The last save wins: a product ends with the row read for the last line
      that names it, less that line's quantity alone, whatever earlier lines
      for it asked. */
  lemma {:induction false} LastLineWinsAsWritten(products: map<int, Product>, lines: seq<Line>, k: int)
    requires forall i :: 0 <= i < |lines| ==> !Short(lines[i])
    requires 0 <= k < |lines|
    requires forall j :: k < j < |lines| ==> lines[j].productId != lines[k].productId
    ensures StockWritesAsWritten(products, lines)[lines[k].productId] ==
      lines[k].product.(stock := lines[k].product.stock - lines[k].quantity)
    decreases |lines|
  {
    if k < |lines| - 1 {
      var init := lines[..|lines| - 1];
      assert init[k] == lines[k];
      LastLineWinsAsWritten(products, init, k);
    }
  }

  lemma AsWrittenStep(products: map<int, Product>, lines: seq<Line>)
    requires forall i :: 0 <= i < |lines| ==> !Short(lines[i])
    requires lines != []
    ensures var last := lines[|lines| - 1];
      StockWritesAsWritten(products, lines) ==
        StockWritesAsWritten(products, lines[..|lines| - 1])[last.productId := last.product.(stock := last.product.stock - last.quantity)]
  {
  }

  lemma CumulativeStep(products: map<int, Product>, lines: seq<Line>)
    requires StockCovers(products, lines)
    requires lines != []
    ensures StockCovers(products, lines[..|lines| - 1])
    ensures var last := lines[|lines| - 1];
      var before := StockWritesCumulative(products, lines[..|lines| - 1]);
      StockWritesCumulative(products, lines) ==
        before[last.productId := before[last.productId].(stock := before[last.productId].stock - last.quantity)]
  {
    StockCoversPrefix(products, lines, |lines| - 1);
  }

  /** One more distinct line keeps the two writes equal. */
  lemma AgreeingWritesStep(products: map<int, Product>, lines: seq<Line>)
    requires lines != [] && LinesCurrent(products, lines) && StockCovers(products, lines)
    requires forall i :: 0 <= i < |lines| ==> !Short(lines[i])
    requires forall i :: 0 <= i < |lines| - 1 ==> lines[i].productId != lines[|lines| - 1].productId
    requires StockCovers(products, lines[..|lines| - 1])
    requires StockWritesAsWritten(products, lines[..|lines| - 1]) == StockWritesCumulative(products, lines[..|lines| - 1])
    ensures StockWritesAsWritten(products, lines) == StockWritesCumulative(products, lines)
  {
    var init := lines[..|lines| - 1];
    var last := lines[|lines| - 1];
    var before := StockWritesCumulative(products, init);
    assert before[last.productId] == last.product by {
      DemandAbsent(init, last.productId);
    }
    AsWrittenStep(products, lines);
    CumulativeStep(products, lines);
  }

  lemma OverdrawnIsShortOnDistinct(lines: seq<Line>)
    requires forall i, j :: 0 <= i < j < |lines| ==> lines[i].productId != lines[j].productId
    ensures forall i :: 0 <= i < |lines| ==> (Overdrawn(lines, i) <==> Short(lines[i]))
  {
    forall i | 0 <= i < |lines| ensures Overdrawn(lines, i) <==> Short(lines[i]) {
      var prefix := lines[..i + 1];
      assert prefix[..i] == lines[..i];
      DemandAbsent(lines[..i], lines[i].productId);
    }
  }

  /** When no two lines name the same product, the check and the writes as
      written coincide with the ones placement uses. */
  lemma {:induction false} AsWrittenAgreesOnDistinctLines(products: map<int, Product>, lines: seq<Line>)
    requires LinesCurrent(products, lines)
    requires forall i, j :: 0 <= i < j < |lines| ==> lines[i].productId != lines[j].productId
    ensures FirstShort(lines) == FirstOverdrawn(lines)
    ensures FirstShort(lines).None? ==>
      StockCovers(products, lines) && StockWritesAsWritten(products, lines) == StockWritesCumulative(products, lines)
    decreases |lines|
  {
    OverdrawnIsShortOnDistinct(lines);
    if lines != [] && FirstShort(lines).None? {
      var init := lines[..|lines| - 1];
      var last := lines[|lines| - 1];
      AsWrittenAgreesOnDistinctLines(products, init);
      assert FirstShort(init).None?;
      NoOverdrawIffCovered(products, lines);
      AgreeingWritesStep(products, lines);
    }
  }

  /** Concrete request: product 1 has 5 in stock; two lines ask for 3 and 4 of it. */
  function OversellCatalog(): map<int, Product> {
    map[1 := Product("Tea", "tea", 2.0, "", 5, true, {})]
  }

  function OversellRequest(): OrderRequest {
    OrderRequest("OUTRIGHT", "1 Main St", "555", [ItemInput(1, 3), ItemInput(1, 4)])
  }

  /** As written, the request passes the check: 7 units are billed, yet the
      stored stock only drops from 5 to 1, because the second line's save
      overwrites the first. */
  lemma OversellAsWritten()
    ensures ValidateOrder(OversellCatalog(), OversellRequest()).Ok?
    ensures var lines := ValidateOrder(OversellCatalog(), OversellRequest()).value.lines;
      && FirstShort(lines).None?
      && LinesTotal(lines) == 14.0
      && StockWritesAsWritten(OversellCatalog(), lines)[1].stock == 1
  {
    var products := OversellCatalog();
    var req := OversellRequest();
    assert req.paymentOption in PaymentOptionNames;
    var lines := ValidateOrder(products, req).value.lines;
    assert lines == [Line(1, products[1], 3), Line(1, products[1], 4)];
    assert lines[..1] == [Line(1, products[1], 3)];
  }

  /** Placement refuses the same request for stock. */
  lemma PlacementRefusesOversell(rows: map<int, Application>, user: int, today: int, paymentOk: bool, orderId: int)
    requires UniqueUsers(rows)
    ensures PlaceOrder(OversellCatalog(), rows, user, OversellRequest(), today, paymentOk, orderId) == Err(OutOfStock(1))
  {
    var products := OversellCatalog();
    var req := OversellRequest();
    assert req.paymentOption in PaymentOptionNames;
    var lines := ValidateOrder(products, req).value.lines;
    assert lines == [Line(1, products[1], 3), Line(1, products[1], 4)];
    assert lines[..1] == [Line(1, products[1], 3)];
    assert lines[..2] == lines;
    assert !Overdrawn(lines, 0);
    assert Overdrawn(lines, 1);
  }

  // ---------------------------------------------------------------------------
  // Order list and detail

  /** `Order.objects.filter(user=user).order_by('-created_at')`: ids grow with
      creation time, so newest first is highest id first. */
  function OrdersOf(orders: seq<Order>, user: int): (r: seq<Order>)
    requires forall i, j :: 0 <= i < j < |orders| ==> orders[i].id < orders[j].id
    ensures forall o :: o in r <==> o in orders && o.user == user
    ensures forall i, j :: 0 <= i < j < |r| ==> r[i].id > r[j].id
    decreases |orders|
  {
    if orders == [] then []
    else
      var last := orders[|orders| - 1];
      var rest := OrdersOf(orders[..|orders| - 1], user);
      assert forall o :: o in rest ==> o.id < last.id;
      if last.user == user then [last] + rest else rest
  }

  datatype DetailError = OrderNotFound

  /** `get_object_or_404(Order, pk=pk, user=user)`: another user's order is
      answered like a missing one. */
  function OrderDetail(orders: seq<Order>, user: int, pk: int): (r: Result<Order, DetailError>)
    ensures r.Ok? <==> exists i :: 0 <= i < |orders| && orders[i].id == pk && orders[i].user == user
    ensures r.Ok? ==> r.value in orders && r.value.id == pk && r.value.user == user
    decreases |orders|
  {
    if orders == [] then Err(OrderNotFound)
    else
      var last := orders[|orders| - 1];
      if last.id == pk && last.user == user then Ok(last)
      else
        var r := OrderDetail(orders[..|orders| - 1], user, pk);
        assert r.Ok? ==> r.value in orders;
        r
  }
}

=== FILE: paylater_models.dfy ===
/** The Pay-Later application record (`PayLaterApplication`), its status enum,
    its defaults, and the application table with the database's uniqueness
    constraints (one application per user, national id unique). */
module PayLaterModels {
  import opened Common

  /** The seven values of `STATUS_CHOICES`. */
  datatype Status =
    | PendingSubmission
    | SubmittedKyc
    | PendingCrcCheck
    | CrcApproved
    | CrcRejected
    | ApprovedEligible
    | RejectedIneligible

  /** The spelling stored in the `status` column. */
  function StatusName(s: Status): string {
    match s
    case PendingSubmission => "PENDING_SUBMISSION"
    case SubmittedKyc => "SUBMITTED_KYC"
    case PendingCrcCheck => "PENDING_CRC_CHECK"
    case CrcApproved => "CRC_APPROVED"
    case CrcRejected => "CRC_REJECTED"
    case ApprovedEligible => "APPROVED_ELIGIBLE"
    case RejectedIneligible => "REJECTED_INELIGIBLE"
  }

  const StatusNames: set<string> := {
    "PENDING_SUBMISSION", "SUBMITTED_KYC", "PENDING_CRC_CHECK", "CRC_APPROVED",
    "CRC_REJECTED", "APPROVED_ELIGIBLE", "REJECTED_INELIGIBLE"
  }

  /** The choice validation of the `status` column: exactly the seven names are accepted. */
  function ParseStatus(name: string): (r: Option<Status>)
    ensures r.Some? <==> name in StatusNames
    ensures r.Some? ==> StatusName(r.value) == name
  {
    if name == "PENDING_SUBMISSION" then Some(PendingSubmission)
    else if name == "SUBMITTED_KYC" then Some(SubmittedKyc)
    else if name == "PENDING_CRC_CHECK" then Some(PendingCrcCheck)
    else if name == "CRC_APPROVED" then Some(CrcApproved)
    else if name == "CRC_REJECTED" then Some(CrcRejected)
    else if name == "APPROVED_ELIGIBLE" then Some(ApprovedEligible)
    else if name == "REJECTED_INELIGIBLE" then Some(RejectedIneligible)
    else None
  }

  lemma StatusNameRoundTrip(s: Status)
    ensures StatusName(s) in StatusNames
    ensures ParseStatus(StatusName(s)) == Some(s)
  {
  }

  /** The statuses the credit-check task refuses to reprocess. */
  predicate IsTerminal(s: Status) {
    s == ApprovedEligible || s == RejectedIneligible
  }

  /** The know-your-customer columns; employment status and income are optional. */
  datatype Kyc = Kyc(
    fullName: string,
    nationalId: string,
    dateOfBirth: int,          // a day number
    address: string,
    phone: string,
    employmentStatus: Option<string>,
    monthlyIncome: Option<real>)

  datatype Application = Application(
    user: int,
    status: Status,
    kyc: Kyc,
    creditScore: Option<int>,
    decisionData: Option<string>,   // raw credit-reference response, kept verbatim
    approvedLimit: Option<real>,
    isEligible: bool,
    eligibilityReason: Option<string>)

  /** No decision has been recorded: every nullable decision column is null and
      `is_eligible` has its default. */
  predicate Undecided(a: Application) {
    && a.creditScore.None?
    && a.decisionData.None?
    && a.approvedLimit.None?
    && a.eligibilityReason.None?
    && !a.isEligible
  }

  /** A row as the model's defaults create it when only the user and the KYC
      columns are given. */
  function NewApplication(user: int, kyc: Kyc): (a: Application)
    ensures a.user == user && a.kyc == kyc
    ensures a.status == PendingSubmission
    ensures Undecided(a)
  {
    Application(user, PendingSubmission, kyc, None, None, None, false, None)
  }

  // ---------------------------------------------------------------------------
  // Properties of the whole table

  predicate HasApplication(rows: map<int, Application>, user: int) {
    exists id :: id in rows && rows[id].user == user
  }

  predicate NationalIdTaken(rows: map<int, Application>, nationalId: string) {
    exists id :: id in rows && rows[id].kyc.nationalId == nationalId
  }

  /** The one-to-one `user` column. */
  ghost predicate UniqueUsers(rows: map<int, Application>) {
    forall i, j :: i in rows && j in rows && rows[i].user == rows[j].user ==> i == j
  }

  /** The `unique=True` national id column. */
  ghost predicate UniqueNationalIds(rows: map<int, Application>) {
    forall i, j :: i in rows && j in rows && rows[i].kyc.nationalId == rows[j].kyc.nationalId ==> i == j
  }

  /** The invariants the submission path and the credit-check task keep:
      eligibility is set exactly for approved applications, and no decision
      column is filled before a terminal status is reached. */
  ghost predicate WorkflowInvariant(rows: map<int, Application>) {
    && (forall id :: id in rows ==> (rows[id].isEligible <==> rows[id].status == ApprovedEligible))
    && (forall id :: id in rows && !IsTerminal(rows[id].status) ==> Undecided(rows[id]))
  }

  /** `PayLaterApplication.objects.get(user=user)`; the one-to-one column makes the answer unique. */
  function ApplicationIdOf(rows: map<int, Application>, user: int): (r: Option<int>)
    requires UniqueUsers(rows)
    ensures r.Some? <==> HasApplication(rows, user)
    ensures r.Some? ==> r.value in rows && rows[r.value].user == user
  {
    if HasApplication(rows, user) then
      Some(var id :| id in rows && rows[id].user == user; id)
    else
      None
  }

  datatype IntegrityError = UserTaken | NationalIdInUse

  /** The database table of applications.  Every write goes through `Insert`
      or `Update`, which is how the database keeps its unique constraints. */
  class ApplicationTable {
    var rows: map<int, Application>
    var nextId: int

    ghost predicate Valid()
      reads this
    {
      && UniqueUsers(rows)
      && UniqueNationalIds(rows)
      && 0 < nextId
      && (forall id :: id in rows ==> 0 < id < nextId)
    }

    constructor ()
      ensures Valid() && rows == map[]
    {
      rows := map[];
      nextId := 1;
    }

    /** `INSERT`: refused by the constraints when the user already has a row or
        the national id is in use; otherwise the row gets a fresh id. */
    method Insert(app: Application) returns (r: Result<int, IntegrityError>)
      requires Valid()
      modifies this
      ensures Valid()
      ensures r.Err? <==> HasApplication(old(rows), app.user) || NationalIdTaken(old(rows), app.kyc.nationalId)
      ensures r.Err? ==> rows == old(rows)
      ensures r.Ok? ==> r.value !in old(rows) && rows == old(rows)[r.value := app]
    {
      if HasApplication(rows, app.user) {
        return Err(UserTaken);
      }
      if NationalIdTaken(rows, app.kyc.nationalId) {
        return Err(NationalIdInUse);
      }
      var id := nextId;
      rows := rows[id := app];
      nextId := nextId + 1;
      r := Ok(id);
    }

    /** `save()` of an existing row whose user and national id are unchanged. */
    method Update(id: int, app: Application)
      requires Valid() && id in rows
      requires app.user == rows[id].user && app.kyc.nationalId == rows[id].kyc.nationalId
      modifies this
      ensures Valid()
      ensures rows == old(rows)[id := app] && nextId == old(nextId)
    {
      rows := rows[id := app];
    }

    /** Rolling back a transaction: the rows return to a state read earlier. */
    method Restore(savepoint: map<int, Application>)
      requires Valid()
      requires UniqueUsers(savepoint) && UniqueNationalIds(savepoint)
      requires forall id :: id in savepoint ==> 0 < id < nextId
      modifies this
      ensures Valid()
      ensures rows == savepoint && nextId == old(nextId)
    {
      rows := savepoint;
    }

    /** `objects.get(id=...)`, with `DoesNotExist` as `None`. */
    method Get(id: int) returns (r: Option<Application>)
      ensures r.Some? <==> id in rows
      ensures r.Some? ==> r.value == rows[id]
    {
      r := if id in rows then Some(rows[id]) else None;
    }

    /** `objects.get(user=user)`, with `DoesNotExist` as `None`. */
    method FindByUser(user: int) returns (r: Option<int>)
      requires Valid()
      ensures r == ApplicationIdOf(rows, user)
    {
      if HasApplication(rows, user) {
        var id :| id in rows && rows[id].user == user;
        r := Some(id);
      } else {
        r := None;
      }
    }
  }
}

=== FILE: paylater_serializers.dfy ===
/** `PayLaterApplicationSerializer` (field validation and `create`) and the
    `PayLaterEligibilitySerializer` projection. */
module PayLaterSerializers {
  import opened Common
  import opened PayLaterModels

  /** The KYC part of a submission as the client sends it; a missing date is `None`. */
  datatype KycInput = KycInput(
    fullName: string,
    nationalId: string,
    dateOfBirth: Option<int>,
    address: string,
    phone: string,
    employmentStatus: Option<string>,
    monthlyIncome: Option<real>)

  /** A submission body: the writable KYC fields and whatever the client puts
      in the read-only fields, which the serializer drops. */
  datatype SubmissionRequest = SubmissionRequest(
    kyc: KycInput,
    status: Option<string>,
    creditScore: Option<int>,
    decisionData: Option<string>,
    isEligible: Option<bool>,
    eligibilityReason: Option<string>,
    approvedLimit: Option<real>)

  datatype KycField = FullName | NationalId | DateOfBirth | Address | Phone | EmploymentStatus

  datatype ValidationError =
    | Blank(field: KycField)
    | TooLong(field: KycField)
    | Required(field: KycField)
    | NationalIdNotUnique
    | AlreadyApplied

  const MaxFullName: nat := 255
  const MaxNationalId: nat := 50
  const MaxPhone: nat := 20
  const MaxEmploymentStatus: nat := 100

  /** The column constraints on the writable fields, as one predicate. */
  predicate KycFieldsValid(k: KycInput) {
    && 0 < |k.fullName| <= MaxFullName
    && 0 < |k.nationalId| <= MaxNationalId
    && k.dateOfBirth.Some?
    && 0 < |k.address|
    && 0 < |k.phone| <= MaxPhone
    && (k.employmentStatus.Some? ==> |k.employmentStatus.value| <= MaxEmploymentStatus)
  }

  /** `is_valid()`: each writable column's checks in declaration order, then
      the national id's unique validator.  The read-only fields are not looked at. */
  function ValidateSubmission(rows: map<int, Application>, req: SubmissionRequest): (r: Result<Kyc, ValidationError>)
    ensures r.Ok? <==> KycFieldsValid(req.kyc) && !NationalIdTaken(rows, req.kyc.nationalId)
    ensures r.Ok? ==> r.value == Kyc(req.kyc.fullName, req.kyc.nationalId, req.kyc.dateOfBirth.value,
                                     req.kyc.address, req.kyc.phone,
                                     req.kyc.employmentStatus, req.kyc.monthlyIncome)
  {
    var k := req.kyc;
    if |k.fullName| == 0 then Err(Blank(FullName))
    else if |k.fullName| > MaxFullName then Err(TooLong(FullName))
    else if |k.nationalId| == 0 then Err(Blank(NationalId))
    else if |k.nationalId| > MaxNationalId then Err(TooLong(NationalId))
    else if NationalIdTaken(rows, k.nationalId) then Err(NationalIdNotUnique)
    else if k.dateOfBirth.None? then Err(Required(DateOfBirth))
    else if |k.address| == 0 then Err(Blank(Address))
    else if |k.phone| == 0 then Err(Blank(Phone))
    else if |k.phone| > MaxPhone then Err(TooLong(Phone))
    else if k.employmentStatus.Some? && |k.employmentStatus.value| > MaxEmploymentStatus then Err(TooLong(EmploymentStatus))
    else Ok(Kyc(k.fullName, k.nationalId, k.dateOfBirth.value, k.address, k.phone, k.employmentStatus, k.monthlyIncome))
  }

  /** Client-supplied status and decision fields have no effect on validation. */
  lemma ReadOnlyFieldsIgnored(rows: map<int, Application>, r1: SubmissionRequest, r2: SubmissionRequest)
    requires r1.kyc == r2.kyc
    ensures ValidateSubmission(rows, r1) == ValidateSubmission(rows, r2)
  {
  }

  /** The record `create` inserts: the requesting user, the validated KYC
      columns, status `SUBMITTED_KYC`, and the defaults for everything else. */
  function SubmittedApplication(user: int, kyc: Kyc): (a: Application)
    ensures a.user == user && a.kyc == kyc
    ensures a.status == SubmittedKyc
    ensures Undecided(a)
  {
    NewApplication(user, kyc).(status := SubmittedKyc)
  }

  datatype CreateError = Invalid(invalid: ValidationError) | Integrity(violation: IntegrityError)

  /** `create`: refuse a second application for the user, otherwise insert
      the submitted record.  The insert can still meet the table's constraints. */
  method Create(table: ApplicationTable, user: int, kyc: Kyc) returns (r: Result<int, CreateError>)
    requires table.Valid()
    modifies table
    ensures table.Valid()
    ensures HasApplication(old(table.rows), user) ==> r == Err(Invalid(AlreadyApplied))
    ensures r.Err? ==> table.rows == old(table.rows)
    ensures r.Ok? <==> !HasApplication(old(table.rows), user) && !NationalIdTaken(old(table.rows), kyc.nationalId)
    ensures r.Ok? ==>
      r.value !in old(table.rows) && table.rows == old(table.rows)[r.value := SubmittedApplication(user, kyc)]
  {
    var existing := table.FindByUser(user);
    if existing.Some? {
      return Err(Invalid(AlreadyApplied));
    }
    var validated := NewApplication(user, kyc);
    validated := validated.(status := SubmittedKyc);
    var inserted := table.Insert(validated);
    r := match inserted
      case Ok(id) => Ok(id)
      case Err(e) => Err(Integrity(e));
  }

  /** What `PayLaterEligibilitySerializer` shows of an application. */
  datatype Eligibility = Eligibility(
    isEligible: bool,
    status: Status,
    eligibilityReason: Option<string>,
    approvedLimit: Option<real>)

  /** The projection shows the row's own four columns; so an undecided row
      shows no decision, and a row that keeps the rule "eligible exactly when
      approved" shows a projection that keeps it too. */
  function EligibilityOf(a: Application): (r: Eligibility)
    ensures r.isEligible == a.isEligible && r.status == a.status
    ensures r.eligibilityReason == a.eligibilityReason && r.approvedLimit == a.approvedLimit
    ensures Undecided(a) ==> !r.isEligible && r.eligibilityReason.None? && r.approvedLimit.None?
    ensures (a.isEligible <==> a.status == ApprovedEligible) ==> (r.isEligible <==> r.status == ApprovedEligible)
  {
    Eligibility(a.isEligible, a.status, a.eligibilityReason, a.approvedLimit)
  }

  /** The projection shows exactly four columns: two applications have the
      same projection if and only if they agree on those four. */
  lemma EligibilityShowsExactlyFourFields(a: Application, b: Application)
    ensures EligibilityOf(a) == EligibilityOf(b) <==>
      && a.isEligible == b.isEligible
      && a.status == b.status
      && a.eligibilityReason == b.eligibilityReason
      && a.approvedLimit == b.approvedLimit
  {
  }
}

=== FILE: paylater_tasks.dfy ===
/** The background credit-reference (CRC) check, `perform_crc_check_task`, and
    the job queue its `.delay(...)` appends to.  The call to the credit
    reference service is an oracle: its outcome is a parameter. */
module PayLaterTasks {
  import opened Common
  import opened PayLaterModels

  /** `max_retries=5` on the Celery decorator. */
  const MaxRetries: nat := 5

  /** The five values `call_crc_api` returns. */
  datatype CrcAnswer = CrcAnswer(
    approved: bool,
    score: Option<int>,
    reason: Option<string>,
    limit: Option<real>,
    raw: Option<string>)

  /** What the call to the credit reference service does: it answers, raises a
      `requests` exception (a network or HTTP error), or raises anything else. */
  datatype CrcOutcome = Answered(answer: CrcAnswer) | RequestFailure | OtherError

  /** How one execution of the CRC task ends. */
  datatype TaskOutcome =
    | AlreadyProcessed    // terminal-status guard: returned early
    | Completed           // decision committed
    | DoesNotExist          // no row with that id: no retry
    | RetryScheduled      // `RequestException` with retries left: `self.retry`
    | RetriesExhausted    // `RequestException` with no retries left: re-raised
    | Failed              // any other exception: logged, no retry

  /** One execution: the committed rows, its outcome, and whether the credit
      reference service was called. */
  datatype Run = Run(rows: map<int, Application>, outcome: TaskOutcome, crcCalled: bool)

  /** The shape of an answer produced by the simulated service: a limit comes
      with an approval and only with an approval. */
  predicate SimulatedShape(a: CrcAnswer) {
    a.approved <==> a.limit.Some?
  }

  /** The decision written into the record from a CRC answer. */
  function ApplyAnswer(app: Application, a: CrcAnswer): (r: Application)
    ensures r.user == app.user && r.kyc == app.kyc
    ensures IsTerminal(r.status)
    ensures r.isEligible == a.approved
    ensures r.isEligible <==> r.status == ApprovedEligible
  {
    app.(creditScore := a.score, decisionData := a.raw, approvedLimit := a.limit,
         eligibilityReason := a.reason,
         status := if a.approved then ApprovedEligible else RejectedIneligible,
         isEligible := a.approved)
  }

  /** Which way an exception from the CRC call ends the CRC task: only a
      `RequestException` is retried, and only while retries are left. */
  function FailureOutcome(crc: CrcOutcome, retries: nat): (t: TaskOutcome)
    requires !crc.Answered?
    ensures t == RetryScheduled <==> crc.RequestFailure? && retries < MaxRetries
    ensures t == RetriesExhausted <==> crc.RequestFailure? && retries >= MaxRetries
    ensures t == Failed <==> crc.OtherError?
  {
    if crc.RequestFailure? then
      (if retries < MaxRetries then RetryScheduled else RetriesExhausted)
    else
      Failed
  }

  /** The effect of one execution of the CRC task on the committed rows: the
      specification of `PerformCrcCheck`.  The status write before the call
      belongs to the same transaction and is lost when the call raises. */
  function CheckRun(rows: map<int, Application>, id: int, retries: nat, crc: CrcOutcome): (r: Run)
    ensures r.rows.Keys == rows.Keys
    ensures forall k :: k in rows && k != id ==> r.rows[k] == rows[k]
    ensures r.crcCalled <==> id in rows && !IsTerminal(rows[id].status)
    ensures r.outcome == Completed <==> r.crcCalled && crc.Answered?
    ensures r.outcome != Completed ==> r.rows == rows
  {
    if id !in rows then Run(rows, DoesNotExist, false)
    else if IsTerminal(rows[id].status) then Run(rows, AlreadyProcessed, false)
    else match crc
      case Answered(a) => Run(rows[id := ApplyAnswer(rows[id].(status := PendingCrcCheck), a)], Completed, true)
      case _ => Run(rows, FailureOutcome(crc, retries), true)
  }

  /** The CRC task body.  `transaction.atomic()` is modelled by a savepoint of the
      rows that is restored on the exception paths.  `seen` is the row as
      stored at the moment the service is called: already marked
      `PENDING_CRC_CHECK`, with every other column as it was. */
  method PerformCrcCheck(table: ApplicationTable, id: int, retries: nat, crc: CrcOutcome)
    returns (outcome: TaskOutcome, crcCalled: bool, ghost seen: Option<Application>)
    requires table.Valid()
    modifies table
    ensures table.Valid() && table.nextId == old(table.nextId)
    ensures Run(table.rows, outcome, crcCalled) == CheckRun(old(table.rows), id, retries, crc)
    ensures crcCalled <==> seen.Some?
    ensures crcCalled ==> id in old(table.rows) && seen.value == old(table.rows)[id].(status := PendingCrcCheck)
  {
    seen := None;
    crcCalled := false;
    var savepoint := table.rows;
    var found := table.Get(id);
    if found.None? {
      return DoesNotExist, false, None;
    }
    var application := found.value;
    if IsTerminal(application.status) {
      return AlreadyProcessed, false, None;
    }
    application := application.(status := PendingCrcCheck);
    table.Update(id, application);

    seen := Some(table.rows[id]);
    crcCalled := true;
    match crc {
      case Answered(a) =>
        application := application.(creditScore := a.score, decisionData := a.raw,
                                    approvedLimit := a.limit, eligibilityReason := a.reason);
        if a.approved {
          application := application.(status := ApprovedEligible, isEligible := true);
        } else {
          application := application.(status := RejectedIneligible, isEligible := false);
        }
        table.Update(id, application);
        outcome := Completed;
      case RequestFailure =>
        table.Restore(savepoint);
        outcome := if retries < MaxRetries then RetryScheduled else RetriesExhausted;
      case OtherError =>
        table.Restore(savepoint);
        outcome := Failed;
    }
  }

  /** The broker queue of `perform_crc_check_task` jobs, each an application id. */
  class JobQueue {
    var jobs: seq<int>

    constructor ()
      ensures jobs == []
    {
      jobs := [];
    }

    /** `perform_crc_check_task.delay(id)`. */
    method Delay(id: int)
      modifies this
      ensures jobs == old(jobs) + [id]
    {
      jobs := jobs + [id];
    }
  }

  // ---------------------------------------------------------------------------
  // Properties of one execution

  /** The guard: a terminal application is left alone and the service is not called. */
  lemma TerminalGuard(rows: map<int, Application>, id: int, retries: nat, crc: CrcOutcome)
    requires id in rows && IsTerminal(rows[id].status)
    ensures CheckRun(rows, id, retries, crc) == Run(rows, AlreadyProcessed, false)
  {
  }

  /** The service is called exactly for an existing, non-terminal application. */
  lemma CrcCalledIffProceeding(rows: map<int, Application>, id: int, retries: nat, crc: CrcOutcome)
    ensures CheckRun(rows, id, retries, crc).crcCalled <==> id in rows && !IsTerminal(rows[id].status)
  {
  }

  /** A completed call decides the application: terminal status, eligibility
      equal to the answer's approval, the answer's fields copied verbatim,
      the user and KYC columns untouched, every other row untouched. */
  lemma CompletedRunDecides(rows: map<int, Application>, id: int, retries: nat, a: CrcAnswer)
    requires id in rows && !IsTerminal(rows[id].status)
    ensures var r := CheckRun(rows, id, retries, Answered(a));
      && r.outcome == Completed
      && r.rows.Keys == rows.Keys
      && r.rows[id].status == (if a.approved then ApprovedEligible else RejectedIneligible)
      && (r.rows[id].isEligible <==> r.rows[id].status == ApprovedEligible)
      && r.rows[id].isEligible == a.approved
      && r.rows[id].creditScore == a.score
      && r.rows[id].decisionData == a.raw
      && r.rows[id].approvedLimit == a.limit
      && r.rows[id].eligibilityReason == a.reason
      && r.rows[id].user == rows[id].user
      && r.rows[id].kyc == rows[id].kyc
      && (forall other :: other in rows && other != id ==> r.rows[other] == rows[other])
  {
  }

  /** An exception from the call rolls the transaction back: the committed rows
      are those before the CRC task, so the `PENDING_CRC_CHECK` write is lost.  Only
      a `RequestException` with retries left is retried. */
  lemma FailedCallRollsBack(rows: map<int, Application>, id: int, retries: nat, crc: CrcOutcome)
    requires !crc.Answered?
    ensures var r := CheckRun(rows, id, retries, crc);
      && r.rows == rows
      && (r.outcome == RetryScheduled <==>
            id in rows && !IsTerminal(rows[id].status) && crc.RequestFailure? && retries < MaxRetries)
  {
  }

  /** A missing id ends the CRC task without a retry and without a change. */
  lemma MissingIdIsNotRetried(rows: map<int, Application>, id: int, retries: nat, crc: CrcOutcome)
    requires id !in rows
    ensures CheckRun(rows, id, retries, crc) == Run(rows, DoesNotExist, false)
  {
  }

  /** The CRC task only ever touches row `id`, and on that row never the user or the KYC columns. */
  lemma TaskTouchesOnlyDecision(rows: map<int, Application>, id: int, retries: nat, crc: CrcOutcome)
    ensures var r := CheckRun(rows, id, retries, crc);
      && r.rows.Keys == rows.Keys
      && (forall other :: other in rows && other != id ==> r.rows[other] == rows[other])
      && (forall k :: k in rows ==> r.rows[k].user == rows[k].user && r.rows[k].kyc == rows[k].kyc)
  {
  }

  /** The reserved statuses `CRC_APPROVED` and `CRC_REJECTED` are never the
      target of the CRC task: a row in one of them afterwards was in it before, and
      the committed status of row `id` is either unchanged or terminal. */
  lemma NoTransitionIntoReservedStatuses(rows: map<int, Application>, id: int, retries: nat, crc: CrcOutcome)
    ensures var r := CheckRun(rows, id, retries, crc);
      && (forall k :: k in r.rows && r.rows[k].status in {CrcApproved, CrcRejected} ==>
            k in rows && r.rows[k].status == rows[k].status)
      && (id in rows ==> r.rows[id].status == rows[id].status || IsTerminal(r.rows[id].status))
  {
  }

  /** The CRC task keeps the workflow invariant of the table. */
  lemma CheckRunPreservesInvariant(rows: map<int, Application>, id: int, retries: nat, crc: CrcOutcome)
    requires WorkflowInvariant(rows)
    ensures WorkflowInvariant(CheckRun(rows, id, retries, crc).rows)
  {
  }

  /** With an answer of the simulated shape, a committed limit exists exactly
      for eligible applications. */
  lemma SimulatedAnswerLimitOnlyWhenEligible(rows: map<int, Application>, id: int, retries: nat, a: CrcAnswer)
    requires id in rows && !IsTerminal(rows[id].status) && SimulatedShape(a)
    ensures var app := CheckRun(rows, id, retries, Answered(a)).rows[id];
      app.approvedLimit.Some? <==> app.isEligible
  {
  }

  /** Without that shape the limit is copied even on a rejection. */
  lemma RejectionKeepsReturnedLimit(rows: map<int, Application>, id: int, retries: nat, limit: real)
    requires id in rows && !IsTerminal(rows[id].status)
    ensures var app := CheckRun(rows, id, retries, Answered(CrcAnswer(false, None, None, Some(limit), None))).rows[id];
      !app.isEligible && app.approvedLimit == Some(limit)
  {
  }

  /** Idempotence: a second delivery after a completed one changes nothing and
      does not call the service. */
  lemma RedeliveryAfterCompletionIsNoOp(rows: map<int, Application>, id: int,
                                        retries1: nat, crc1: CrcOutcome, retries2: nat, crc2: CrcOutcome)
    requires CheckRun(rows, id, retries1, crc1).outcome == Completed
    ensures var first := CheckRun(rows, id, retries1, crc1);
      CheckRun(first.rows, id, retries2, crc2) == Run(first.rows, AlreadyProcessed, false)
  {
  }

  // ---------------------------------------------------------------------------
  // Sequences of executions

  /** One delivery of a job for the application: the retry count it runs with
      and what the service does during it. */
  datatype Delivery = Delivery(retries: nat, crc: CrcOutcome)

  /** Sequential execution of several deliveries of the same job (at-least-once
      delivery): the final rows and the number of executions that completed a
      decision. */
  function Replay(rows: map<int, Application>, id: int, ds: seq<Delivery>): (r: (map<int, Application>, nat))
    ensures r.0.Keys == rows.Keys
    ensures forall k :: k in rows && k != id ==> r.0[k] == rows[k]
    ensures r.1 <= |ds|
    decreases |ds|
  {
    if ds == [] then (rows, 0)
    else
      var run := CheckRun(rows, id, ds[0].retries, ds[0].crc);
      var rest := Replay(run.rows, id, ds[1..]);
      (rest.0, rest.1 + if run.outcome == Completed then 1 else 0)
  }

  predicate SomeAnswer(ds: seq<Delivery>) {
    exists i :: 0 <= i < |ds| && ds[i].crc.Answered?
  }

  lemma {:induction false} ReplayFromTerminal(rows: map<int, Application>, id: int, ds: seq<Delivery>)
    requires id in rows && IsTerminal(rows[id].status)
    ensures Replay(rows, id, ds) == (rows, 0)
    decreases |ds|
  {
    if ds != [] {
      ReplayFromTerminal(rows, id, ds[1..]);
    }
  }

  /** Duplicate delivery is safe: across any sequence of deliveries exactly one
      execution records a decision when the application exists, was not yet
      decided and some delivery got an answer, and none otherwise. */
  lemma {:induction false} ExactlyOneDecision(rows: map<int, Application>, id: int, ds: seq<Delivery>)
    ensures Replay(rows, id, ds).1 ==
      (if id in rows && !IsTerminal(rows[id].status) && SomeAnswer(ds) then 1 else 0)
    decreases |ds|
  {
    if ds == [] {
    } else {
      var run := CheckRun(rows, id, ds[0].retries, ds[0].crc);
      if id !in rows || IsTerminal(rows[id].status) {
        if id in rows {
          ReplayFromTerminal(rows, id, ds);
        } else {
          ExactlyOneDecision(run.rows, id, ds[1..]);
        }
      } else if ds[0].crc.Answered? {
        ReplayFromTerminal(run.rows, id, ds[1..]);
      } else {
        ExactlyOneDecision(run.rows, id, ds[1..]);
        assert SomeAnswer(ds) <==> SomeAnswer(ds[1..]) by {
          if SomeAnswer(ds) {
            var i :| 0 <= i < |ds| && ds[i].crc.Answered?;
            assert ds[1..][i - 1] == ds[i];
          }
          if SomeAnswer(ds[1..]) {
            var i :| 0 <= i < |ds[1..]| && ds[1..][i].crc.Answered?;
            assert ds[i + 1] == ds[1..][i];
          }
        }
      }
    }
  }

  /** The executions of one job under the retry policy: attempt `retries`
      meets `outcomes[0]`; a scheduled retry re-runs the job with the next
      retry count and the next outcome.  The final execution and the number of
      executions (each of which called the service or not, as its run says). */
  function RunWithRetries(rows: map<int, Application>, id: int, retries: nat, outcomes: seq<CrcOutcome>): (r: (Run, nat))
    requires |outcomes| > 0
    ensures 1 <= r.1 <= |outcomes|
    ensures r.0.rows.Keys == rows.Keys
    ensures forall k :: k in rows && k != id ==> r.0.rows[k] == rows[k]
    ensures r.0.outcome == RetryScheduled ==> r.1 == |outcomes|
    ensures forall j :: 0 <= j < r.1 - 1 ==> outcomes[j].RequestFailure?
    ensures r.0 == CheckRun(rows, id, retries + r.1 - 1, outcomes[r.1 - 1])
    decreases |outcomes|
  {
    var run := CheckRun(rows, id, retries, outcomes[0]);
    if run.outcome == RetryScheduled && |outcomes| > 1 then
      var rest := RunWithRetries(run.rows, id, retries + 1, outcomes[1..]);
      (rest.0, rest.1 + 1)
    else
      (run, 1)
  }

  /** The chain stops at the first execution that does not schedule a retry:
      an answer on the first attempt completes the job in one execution. */
  lemma AnsweredAttemptEndsChain(rows: map<int, Application>, id: int, retries: nat, outcomes: seq<CrcOutcome>)
    requires id in rows && !IsTerminal(rows[id].status)
    requires |outcomes| > 0 && outcomes[0].Answered?
    ensures RunWithRetries(rows, id, retries, outcomes).1 == 1
    ensures RunWithRetries(rows, id, retries, outcomes).0 ==
      Run(rows[id := ApplyAnswer(rows[id].(status := PendingCrcCheck), outcomes[0].answer)], Completed, true)
  {
  }

  /** A service that always raises a `RequestException` is called once plus
      `max_retries` more times, after which the exception is re-raised and the
      application keeps the state it had before the first attempt. */
  lemma {:induction false} AlwaysFailingServiceExhaustsRetries(
    rows: map<int, Application>, id: int, retries: nat, outcomes: seq<CrcOutcome>)
    requires id in rows && !IsTerminal(rows[id].status)
    requires retries <= MaxRetries
    requires |outcomes| >= MaxRetries + 1 - retries
    requires forall i :: 0 <= i < |outcomes| ==> outcomes[i] == RequestFailure
    ensures RunWithRetries(rows, id, retries, outcomes) ==
      (Run(rows, RetriesExhausted, true), MaxRetries + 1 - retries)
    decreases MaxRetries - retries
  {
    if retries < MaxRetries {
      assert forall i :: 0 <= i < |outcomes[1..]| ==> outcomes[1..][i] == RequestFailure by {
        forall i | 0 <= i < |outcomes[1..]| ensures outcomes[1..][i] == RequestFailure {
          assert outcomes[1..][i] == outcomes[i + 1];
        }
      }
      AlwaysFailingServiceExhaustsRetries(rows, id, retries + 1, outcomes[1..]);
    }
  }
}

=== FILE: paylater_views.dfy ===
/** `PayLaterApplicationCreateView.create` and
    `PayLaterEligibilityRetrieveView.get_object`. */
module PayLaterViews {
  import opened Common
  import opened PayLaterModels
  import opened PayLaterTasks
  import opened PayLaterSerializers

  datatype SubmitResponse =
    | ExistingApplication(eligibility: Eligibility)   // 200 with the existing application's projection
    | Created(id: int, application: Application)      // 201
    | Rejected(error: CreateError)                     // 400 (or a database error)

  /** The submission endpoint: an existing application is answered with its
      projection; otherwise the body is validated, the record created, and one
      credit-check job is queued for it. */
  method SubmitApplication(table: ApplicationTable, queue: JobQueue, user: int, req: SubmissionRequest)
    returns (resp: SubmitResponse)
    requires table.Valid()
    modifies table, queue
    ensures table.Valid()
    ensures HasApplication(old(table.rows), user) ==>
      && resp == ExistingApplication(EligibilityOf(old(table.rows)[ApplicationIdOf(old(table.rows), user).value]))
      && table.rows == old(table.rows) && queue.jobs == old(queue.jobs)
    ensures !HasApplication(old(table.rows), user) && ValidateSubmission(old(table.rows), req).Err? ==>
      && resp == Rejected(Invalid(ValidateSubmission(old(table.rows), req).error))
      && table.rows == old(table.rows) && queue.jobs == old(queue.jobs)
    ensures !HasApplication(old(table.rows), user) && ValidateSubmission(old(table.rows), req).Ok? ==>
      && resp.Created?
      && resp.id !in old(table.rows)
      && resp.application == SubmittedApplication(user, ValidateSubmission(old(table.rows), req).value)
      && table.rows == old(table.rows)[resp.id := resp.application]
      && queue.jobs == old(queue.jobs) + [resp.id]
  {
    var existing := table.FindByUser(user);
    if existing.Some? {
      return ExistingApplication(EligibilityOf(table.rows[existing.value]));
    }
    var validated := ValidateSubmission(table.rows, req);
    if validated.Err? {
      return Rejected(Invalid(validated.error));
    }
    var created := Create(table, user, validated.value);
    if created.Ok? {
      queue.Delay(created.value);
    }
    resp := match created
      case Ok(id) => Created(id, table.rows[id])
      case Err(e) => Rejected(e);
  }

  /** Every job in the queue names an application of the table. */
  ghost predicate JobsRefer(rows: map<int, Application>, jobs: seq<int>) {
    forall i :: 0 <= i < |jobs| ==> jobs[i] in rows
  }

  /** Submissions keep the workflow invariant and keep every queued job
      pointing at an existing application. */
  lemma SubmissionKeepsInvariants(rows: map<int, Application>, jobs: seq<int>, id: int, app: Application)
    requires WorkflowInvariant(rows) && JobsRefer(rows, jobs)
    requires id !in rows && app.status == SubmittedKyc && Undecided(app)
    ensures WorkflowInvariant(rows[id := app]) && JobsRefer(rows[id := app], jobs + [id])
  {
  }

  datatype RetrieveError =
    | NotFound                  // the intended 404 answer
    | TypeErrorCallingInt       // what `status.HTTP_404_NOT_FOUND({...})` raises

  /** `get_object` as written: the missing-application branch calls the
      integer constant `HTTP_404_NOT_FOUND`, which raises a `TypeError`. */
  function RetrieveAsWritten(rows: map<int, Application>, user: int): (r: Result<Eligibility, RetrieveError>)
    requires UniqueUsers(rows)
    ensures r.Ok? <==> HasApplication(rows, user)
    ensures r.Err? ==> r.error == TypeErrorCallingInt
  {
    match ApplicationIdOf(rows, user)
    case Some(id) => Ok(EligibilityOf(rows[id]))
    case None => Err(TypeErrorCallingInt)
  }

  /** `get_object` as intended: the requesting user's own application, or a 404. */
  function Retrieve(rows: map<int, Application>, user: int): (r: Result<Eligibility, RetrieveError>)
    requires UniqueUsers(rows)
    ensures r.Ok? <==> HasApplication(rows, user)
    ensures r.Ok? ==> exists id :: id in rows && rows[id].user == user && r.value == EligibilityOf(rows[id])
    ensures r.Err? ==> r.error == NotFound
  {
    match ApplicationIdOf(rows, user)
    case Some(id) => Ok(EligibilityOf(rows[id]))
    case None => Err(NotFound)
  }

  /** The two agree on users who have an application; for a user without one
      the code as written never produces the 404 it means to. */
  lemma RetrieveMissingIsNotA404(rows: map<int, Application>, user: int)
    requires UniqueUsers(rows)
    ensures HasApplication(rows, user) ==> RetrieveAsWritten(rows, user) == Retrieve(rows, user)
    ensures !HasApplication(rows, user) ==>
      RetrieveAsWritten(rows, user) != Err(NotFound) && Retrieve(rows, user) == Err(NotFound)
  {
  }

  /** After a CRC run that completes, the status endpoint shows the user the
      decision that run stored: the approval, the terminal status, and the
      reason and limit the service returned. */
  lemma {:induction false} DecisionVisibleAfterCheck(rows: map<int, Application>, id: int, retries: nat, a: CrcAnswer)
    requires UniqueUsers(rows) && id in rows && !IsTerminal(rows[id].status)
    ensures UniqueUsers(CheckRun(rows, id, retries, Answered(a)).rows)
    ensures Retrieve(CheckRun(rows, id, retries, Answered(a)).rows, rows[id].user) ==
      Ok(Eligibility(a.approved, if a.approved then ApprovedEligible else RejectedIneligible, a.reason, a.limit))
  {
    var rows' := CheckRun(rows, id, retries, Answered(a)).rows;
    assert rows' == rows[id := ApplyAnswer(rows[id].(status := PendingCrcCheck), a)];
    assert forall k :: k in rows' ==> rows'[k].user == rows[k].user;
    assert ApplicationIdOf(rows', rows[id].user) == Some(id);
  }

  /** After a submission, the status endpoint shows `SUBMITTED_KYC`, before any
      credit-check job has run. */
  lemma SubmittedStatusVisibleImmediately(rows: map<int, Application>, id: int, user: int, kyc: Kyc)
    requires UniqueUsers(rows) && !HasApplication(rows, user) && id !in rows
    ensures UniqueUsers(rows[id := SubmittedApplication(user, kyc)])
    ensures Retrieve(rows[id := SubmittedApplication(user, kyc)], user) ==
      Ok(Eligibility(false, SubmittedKyc, None, None))
  {
    var rows' := rows[id := SubmittedApplication(user, kyc)];
    assert rows'[id].user == user;
    assert HasApplication(rows', user);
  }
}

=== FILE: product_models.dfy ===
/** The catalog records `Category` and `Product`: their defaults, the slug
    defaulting done by `save`, and the catalog tables with their unique
    columns.  Django's `slugify` is kept uninterpreted: the catalog is given
    some function from names to slugs. */
module ProductModels {
  import opened Common

  datatype Category = Category(name: string, slug: string, description: string)

  datatype Product = Product(
    name: string,
    slug: string,
    price: real,
    description: string,
    stock: nat,              // PositiveIntegerField: never negative
    available: bool,
    categories: set<int>)

  /** A product as created with only its name, price and description given. */
  function NewProduct(name: string, price: real, description: string): (p: Product)
    ensures p.name == name && p.price == price && p.description == description
    ensures p.stock == 0 && p.available
    ensures p.slug == "" && p.categories == {}
  {
    Product(name, "", price, description, 0, true, {})
  }

  /** The slug `save` stores: an empty slug is replaced by the slug of the name. */
  function DefaultSlug(slug: string, name: string, slugify: string -> string): (s: string)
    ensures slug != "" ==> s == slug
    ensures slug == "" ==> s == slugify(name)
  {
    if slug == "" then slugify(name) else slug
  }

  /** Saving twice gives the same slug as saving once. */
  lemma DefaultSlugIdempotent(slug: string, name: string, slugify: string -> string)
    ensures DefaultSlug(DefaultSlug(slug, name, slugify), name, slugify) == DefaultSlug(slug, name, slugify)
  {
  }

  function WithDefaultSlug(p: Product, slugify: string -> string): Product {
    p.(slug := DefaultSlug(p.slug, p.name, slugify))
  }

  function CategoryWithDefaultSlug(c: Category, slugify: string -> string): Category {
    c.(slug := DefaultSlug(c.slug, c.name, slugify))
  }

  /** No product other than `id` has slug `slug`. */
  predicate ProductSlugFree(products: map<int, Product>, id: int, slug: string) {
    forall other :: other in products && other != id ==> products[other].slug != slug
  }

  predicate CategoryFree(categories: map<int, Category>, id: int, c: Category) {
    forall other :: other in categories && other != id ==>
      categories[other].name != c.name && categories[other].slug != c.slug
  }

  datatype IntegrityError = SlugInUse | NameInUse

  /** The product and category tables.  Stored rows have been through `save`,
      so their slug is already defaulted, and slugs and category names are unique. */
  class Catalog {
    const slugify: string -> string
    var products: map<int, Product>
    var categories: map<int, Category>

    ghost predicate Valid()
      reads this
    {
      && (forall id :: id in products ==> WithDefaultSlug(products[id], slugify) == products[id])
      && (forall i, j :: i in products && j in products && i != j ==> products[i].slug != products[j].slug)
      && (forall id :: id in categories ==> CategoryWithDefaultSlug(categories[id], slugify) == categories[id])
      && (forall i, j :: i in categories && j in categories && i != j ==>
            categories[i].name != categories[j].name && categories[i].slug != categories[j].slug)
    }

    constructor (slugify: string -> string)
      ensures Valid() && this.slugify == slugify
      ensures products == map[] && categories == map[]
    {
      this.slugify := slugify;
      products := map[];
      categories := map[];
    }

    /** `Product.save()`: default the slug, then write the row unless another
        product already has that slug. */
    method SaveProduct(id: int, p: Product) returns (r: Result<Product, IntegrityError>)
      requires Valid()
      modifies this
      ensures Valid() && categories == old(categories)
      ensures r.Ok? <==> ProductSlugFree(old(products), id, WithDefaultSlug(p, slugify).slug)
      ensures r.Ok? ==> r.value == WithDefaultSlug(p, slugify) && products == old(products)[id := r.value]
      ensures r.Err? ==> products == old(products)
    {
      var row := p;
      if row.slug == "" {
        row := row.(slug := slugify(row.name));
      }
      if !ProductSlugFree(products, id, row.slug) {
        return Err(SlugInUse);
      }
      products := products[id := row];
      r := Ok(row);
    }

    /** `Category.save()`: default the slug, then write the row unless another
        category has the same name or slug. */
    method SaveCategory(id: int, c: Category) returns (r: Result<Category, IntegrityError>)
      requires Valid()
      modifies this
      ensures Valid() && products == old(products)
      ensures r.Ok? <==> CategoryFree(old(categories), id, CategoryWithDefaultSlug(c, slugify))
      ensures r.Ok? ==> r.value == CategoryWithDefaultSlug(c, slugify) && categories == old(categories)[id := r.value]
      ensures r.Err? ==> categories == old(categories)
    {
      var row := c;
      if row.slug == "" {
        row := row.(slug := slugify(row.name));
      }
      if !CategoryFree(categories, id, row) {
        return Err(if exists other :: other in categories && other != id && categories[other].name == row.name
                   then NameInUse else SlugInUse);
      }
      categories := categories[id := row];
      r := Ok(row);
    }
  }

  /** Saving a product twice stores the same row as saving it once. */
  lemma SaveTwiceSameRow(p: Product, slugify: string -> string)
    ensures WithDefaultSlug(WithDefaultSlug(p, slugify), slugify) == WithDefaultSlug(p, slugify)
  {
    DefaultSlugIdempotent(p.slug, p.name, slugify);
  }
}

=== FILE: product_permissions.dfy ===
/** `IsAdminOrReadOnly` and `IsAuthenticatedOrPurchase`: boolean rules over
    the request method and the requesting user. */
module ProductPermissions {

  /** `request.user`: the anonymous user (never authenticated, never staff) or
      an authenticated account with its staff flag. */
  datatype RequestUser = Anonymous | Account(isStaff: bool) {
    predicate IsAuthenticated() { Account? }
    predicate IsStaff() { Account? && isStaff }
  }

  /** `permissions.SAFE_METHODS`. */
  const SafeMethods: set<string> := {"GET", "HEAD", "OPTIONS"}

  /** `IsAdminOrReadOnly.has_permission`. */
  function AdminOrReadOnly(verb: string, user: RequestUser): (allowed: bool)
    ensures verb in SafeMethods ==> allowed
    ensures verb !in SafeMethods ==> (allowed <==> user.IsAuthenticated() && user.IsStaff())
  {
    if verb in SafeMethods then true
    else user.IsAuthenticated() && user.IsStaff()
  }

  /** `IsAuthenticatedOrPurchase.has_permission`. */
  function AuthenticatedOrPurchase(user: RequestUser): (allowed: bool)
    ensures allowed <==> user.IsAuthenticated()
  {
    user.IsAuthenticated()
  }

  /** `IsAuthenticatedOrPurchase.has_object_permission`: grants every object. */
  function PurchaseObjectPermission<T>(user: RequestUser, obj: T): (allowed: bool)
    ensures allowed
  {
    true
  }

  /** An anonymous user may only read the catalog. */
  lemma AnonymousIsReadOnly(verb: string)
    ensures AdminOrReadOnly(verb, Anonymous) <==> verb in SafeMethods
  {
  }

  /** Whoever may change the catalog may also purchase. */
  lemma WriterMayPurchase(verb: string, user: RequestUser)
    requires verb !in SafeMethods && AdminOrReadOnly(verb, user)
    ensures AuthenticatedOrPurchase(user)
  {
  }
}
